=== FILE: README.md ===
# Counter-Strike game logic in Dafny

A model of three self-contained pieces of game logic from a server-authoritative,
tick-driven Counter-Strike clone, plus the hit-result defaults of solid surfaces:

- **Bomb** (`bomb.dfy`): planting and defusing as tick counters with completion
  thresholds (a defuse kit counts double), resets when the bomb is put away, and the
  ten-band blast-damage table keyed by squared distance.
- **Inventory** (`inventory.dfy`): a slot-keyed map of item records, the equipped and
  last-equipped slots, the armor worn and a dollar balance clamped to [0, 16000];
  round reset, equip, drop, bomb removal, buying, picking up and earning money, with
  the invariant those operations keep.
- **Player action** (`player_action.dfy`): the browser client's key-state machine and
  the per-frame encoder that turns its flags into a `|`-joined command line (fixed
  token order, one-shot flags cleared once sent, explicit shot before spray before
  look-at, look-at sent only when it changed).
- **Solid surface** (`solid_surface.dfy`): the default anti-force of 25123, the
  "no money, no kill, no player, no headshot" answers, and the two-key serialisation.

`text.dfy` holds decimal rendering and the join/split on `|`; `wrappers.dfy` holds `Option`.
Everything is immutable records and pure functions: each operation takes a state and
returns the new state together with what the source returns.

Modelling choices:

- The blast bands in the source compare the integer squared distance with the
  floating-point products `1000000 * .9`, ..., `1000000 * .1`. Each of those products
  rounds to exactly k * 100000 as an IEEE double, so the model states the bands as
  exact integer comparisons `10 * d > k * 1000000`.
- An out-of-range blast is `None` (health is not touched); in range it is the damage
  passed to the player's health reduction.
- Plant and defuse thresholds (frames converted from milliseconds) are parameters.
- The buy menu is an oracle: `Purchase` receives what the menu offered for the
  request, or `None`.
- When a purchase replaces a held item, the source asks the player to drop the
  equipped item. The model takes that drop to be the inventory's own
  `RemoveEquipped`, the operation that removes the equipped item.
- Slot numbers are knife 0, primary 1, secondary 2, bomb 3. The properties depend
  only on these being distinct.
- On the client, the host's pending buy list, the rendered rotation angles and the
  clock are explicit inputs. JavaScript treats a spray start time of 0 as unset, and
  the model does the same.

One consequence of the source is worth knowing. `ResetWithBombEquippedEmptiesEquippedSlot`
shows that a reset without respawn, made while the bomb is equipped, removes the bomb
but leaves the equipped slot pointing at it. Reading the equipped item then fails.
Whether this can happen depends on the player code, which is not part of this model,
so it is recorded here and not claimed as a defect. `ResetKeepsValid` proves the
invariant in every other case.

## Model

| member | source | states |
|---|---|---|
| Bomb.New | server/src/Equipment/Bomb.php:16-27 | a new bomb starts with both counters at 0 and keeps the given thresholds |
| Bomb.Reset | server/src/Equipment/Bomb.php:39-43 | both counters become 0 and the thresholds are unchanged |
| Bomb.UnEquip | server/src/Equipment/Bomb.php:45-49 | putting the bomb away always zeroes both counters |
| Bomb.Plant | server/src/Equipment/Bomb.php:51-55 | one call raises the plant counter by exactly 1, changes nothing else, and reports done iff the new count reaches the threshold |
| Bomb.PlantCallsCount | server/src/Equipment/Bomb.php:51-55 | n plant calls raise the counter by n, and the last reports done iff start + n reaches the threshold |
| Bomb.PlantCompletesAfterMaxCalls | server/src/Equipment/Bomb.php:51-55 | after a reset, the n-th plant call reports done exactly when n is at least the threshold |
| Bomb.PlantStaysDone | server/src/Equipment/Bomb.php:51-55 | once a plant call reported done, every later one does too until a reset |
| Bomb.Defuse | server/src/Equipment/Bomb.php:57-61 | one call raises the defuse counter by 2 with a kit and 1 without, changes nothing else, and reports done iff the threshold is reached |
| Bomb.DefuseCallsCount | server/src/Equipment/Bomb.php:57-61 | n defuse calls raise the counter by n times the step, and the last reports done iff that reaches the threshold |
| Bomb.DefuseCompletesAfterNeededCalls | server/src/Equipment/Bomb.php:57-61 | after a reset, the n-th defuse call completes exactly from ceil(max/2) calls with a kit and max calls without (at least one) |
| Bomb.KitNeverSlower | server/src/Equipment/Bomb.php:57-61 | a kit never needs more calls, and needs strictly fewer once the threshold is 2 or more |
| Bomb.ExplodeDamageToPlayer | server/src/Equipment/Bomb.php:73-102 | health is untouched iff the squared distance exceeds 1000²; otherwise the damage is one of the ten band values, and 500 within a tenth of the squared maximum |
| Bomb.ExplodeDamageMatchesBands | server/src/Equipment/Bomb.php:81-101 | within range the comparison chain equals the band table indexed by the tenth of the squared maximum the distance falls in |
| Bomb.BlastLossMonotone | server/src/Equipment/Bomb.php:75-101 | blast damage never increases with squared distance, out-of-range zero included |
| Inventory.Reset | server/src/Core/Inventory.php:31-52 | on respawn exactly knife and side pistol are held, secondary is equipped, knife is last equipped, armor is none; without respawn everything else is kept and a missing secondary is filled with the side's pistol (Glock for attackers, USP for defenders); the bomb slot is always emptied, the secondary slot always filled and dollars never change |
| Inventory.New | server/src/Core/Inventory.php:26-29 | a new inventory holds exactly the starter knife and the side's pistol (Glock for attackers, USP for defenders), equips the secondary, remembers the knife as last equipped, has no armor and no money |
| Inventory.NewIsValid | server/src/Core/Inventory.php:26-29 | a new inventory satisfies the inventory invariant |
| Inventory.UpdateEquippedSlot | server/src/Core/Inventory.php:54-62 | the equipped slot falls back to the last equipped one if still held, else the knife, and nothing else changes |
| Inventory.RemoveBomb | server/src/Core/Inventory.php:64-68 | the bomb slot is emptied, the equipped slot is re-selected as above and returned, and nothing else changes |
| Inventory.RemoveEquipped | server/src/Core/Inventory.php:75-87 | a non-droppable equipped item gives null and no change; otherwise that slot is removed, its item returned, and equipped falls back to last-equipped if held, else knife |
| Inventory.CanBuy | server/src/Core/Inventory.php:89-106 | false when the price exceeds the balance; otherwise false exactly when the slot holds an item that cannot be bought again |
| Inventory.Equip | server/src/Core/Inventory.php:136-147 | an empty slot gives null and no change; otherwise last-equipped becomes the old equipped slot, equipped becomes the requested slot, and an event for it is returned |
| Inventory.Purchase | server/src/Core/Inventory.php:108-134 | no offer or a refused one gives null and no change; a successful purchase lowers dollars by exactly the price |
| Inventory.PurchaseKevlar | server/src/Core/Inventory.php:110-131 | buying Kevlar into an empty slot only pays and sets the armor type; no slot changes and null is returned |
| Inventory.PurchaseKevlarOverHeld | server/src/Core/Inventory.php:110-131 | buying Kevlar while its slot holds a non-flashbang equips that slot, remembering the previously equipped slot as last equipped, then drops the held item if it is droppable and falls back to the previous slot if still held or else the knife; it pays, sets the armor, places no item and returns null |
| Inventory.PurchaseFlashbangRestock | server/src/Core/Inventory.php:116-133 | buying a flashbang while holding one raises the held one's quantity by 1 and equips it |
| Inventory.PurchaseIntoEmptySlot | server/src/Core/Inventory.php:108-134 | buying into an empty slot pays, places the item and equips it, remembering the old equipped slot |
| Inventory.PurchaseReplaces | server/src/Core/Inventory.php:116-134 | buying over a held non-flashbang replaces it in its slot and equips it, other slots untouched; which slot is remembered as last equipped depends on whether the old item could be dropped |
| Inventory.Pickup | server/src/Core/Inventory.php:149-162 | a held item at its maximum quantity refuses with no change; a held item below it gains 1; an empty slot receives the item |
| Inventory.EarnMoney | server/src/Core/Inventory.php:169-178 | the balance becomes old + amount clamped to [0, 16000] and nothing else changes |
| Inventory.FilledSlots | server/src/Core/Inventory.php:191-199 | exactly the held slots, each mapped to its item's quantity |
| Inventory.FilledSlotsAreHeld | server/src/Core/Inventory.php:188-209 | a slot is reported filled iff it is held |
| Inventory.Has | server/src/Core/Inventory.php:206-209 | true iff the slot holds an item |
| Inventory.ResetKeepsValid | server/src/Core/Inventory.php:31-52 | a reset keeps the invariant unless the bomb is equipped and the player does not respawn |
| Inventory.ResetWithBombEquippedEmptiesEquippedSlot | server/src/Core/Inventory.php:41-50 | every valid inventory with the bomb equipped, reset without respawn on either side, ends with its equipped slot empty |
| Inventory.EquipKeepsValid | server/src/Core/Inventory.php:136-147 | equipping keeps the invariant |
| Inventory.RemoveBombKeepsValid | server/src/Core/Inventory.php:64-68 | removing the bomb keeps the invariant |
| Inventory.RemoveEquippedKeepsValid | server/src/Core/Inventory.php:75-87 | dropping the equipped item keeps the invariant |
| Inventory.PickupKeepsValid | server/src/Core/Inventory.php:149-162 | picking up keeps the invariant |
| Inventory.EarnMoneyKeepsValid | server/src/Core/Inventory.php:169-178 | earning money keeps the invariant |
| Inventory.PurchaseKeepsValid | server/src/Core/Inventory.php:108-134 | with non-negative prices and no droppable knife-slot item on offer, a purchase keeps the invariant, the balance included |
| PlayerAction.OnReload | www/assets/js/PlayerAction.js:57-59 | queues one reload and nothing else; stated by CommandKeyCallbacks (the reload key is exactly this) and ReloadSentOnce (the next frame sends `reload` once) |
| PlayerAction.OnAction | www/assets/js/PlayerAction.js:29-45 | crouch sets crouching on press and standing on release; walk sets shifting or running the same way; releasing any other non-movement key changes nothing; no key but a movement key touches the movement flags, and the state stays valid; what each press does is stated by MoveKeyCallbacks, CommandKeyCallbacks and EquipKeyCallbacks |
| PlayerAction.MoveKeyCallbacks | www/assets/js/PlayerAction.js:30-33 | a movement key sets its flag to the key's state and changes nothing else |
| PlayerAction.CommandKeyCallbacks | www/assets/js/PlayerAction.js:34-44 | pressing jump, drop or reload sets that flag only; the buy-menu and scoreboard keys leave the state alone |
| PlayerAction.EquipKeyCallbacks | www/assets/js/PlayerAction.js:39-42 | pressing an equip key is `equip` of knife, primary, secondary or bomb slot |
| PlayerAction.MovementOnlyFromMoveKeys | www/assets/js/PlayerAction.js:29-45 | only the four movement bindings change the held movement flags |
| PlayerAction.OnAttack | www/assets/js/PlayerAction.js:47-50 | sets the attack request and stores `lookAt x y`, nothing else |
| PlayerAction.OnEquip | www/assets/js/PlayerAction.js:52-55 | queues the slot, stops spraying if spraying and otherwise changes nothing; in a consistent state spraying is then off with no start time |
| PlayerAction.SprayingEnable | www/assets/js/PlayerAction.js:61-64 | turns spraying on with the given start time, nothing else |
| PlayerAction.SprayingDisable | www/assets/js/PlayerAction.js:66-73 | a no-op when not spraying; otherwise spraying stops and the start time is cleared |
| PlayerAction.InitialIsValid | www/assets/js/PlayerAction.js:4-22 | the initial state is consistent, with no one-shot flag and no attack pending |
| PlayerAction.OperationsKeepValid | www/assets/js/PlayerAction.js:29-150 | every callback and every frame keep spraying and its start time set and cleared together |
| PlayerAction.AimTokens | www/assets/js/PlayerAction.js:129-146 | the aim part is empty, one look-at, or a look-at followed by `attack`; it clears the attack request and leaves held movement, the one-shot flags and spraying as they were |
| PlayerAction.BuyTokens | www/assets/js/PlayerAction.js:78-83 | one `buy` token per pending entry, in the list's order |
| PlayerAction.SprayFires | www/assets/js/PlayerAction.js:134 | the spray condition: spraying, a start time that is set and not 0, and the delay elapsed |
| PlayerAction.IdleAim | www/assets/js/PlayerAction.js:139-146 | the idle branch sends nothing but the current look-at, sends nothing exactly when it equals the last one sent, records it as the last one sent, and changes no other flag |
| PlayerAction.GetPlayerAction | www/assets/js/PlayerAction.js:75-150 | the line is the rendered tokens joined with `|`, and the pending buy list is emptied; which tokens are sent is stated by GetPlayerActionSendsSetFlags, GetPlayerActionBuysFirst and GetPlayerActionOrdered |
| PlayerAction.FlagTokensOrdered | www/assets/js/PlayerAction.js:84-127 | the flag tokens follow forward, left, right, backward, jump, crouch, stand, walk, run, reload, drop, equip, each at most once |
| PlayerAction.FlagTokensRanks | www/assets/js/PlayerAction.js:84-127 | the flag tokens from a given position in the order on belong to that position or a later one |
| PlayerAction.FlagTokensExact | www/assets/js/PlayerAction.js:84-127 | a flag token is sent exactly when its flag is set, and `equip` carries the queued slot |
| PlayerAction.FlagTokensSound | www/assets/js/PlayerAction.js:84-127 | every flag token sent is the token of a set flag of its own rank, `equip` with the queued slot |
| PlayerAction.FlagTokensComplete | www/assets/js/PlayerAction.js:84-127 | every set flag has its token sent |
| PlayerAction.FlagTokensFrom | www/assets/js/PlayerAction.js:84-127 | the flag part of the line; what it sends is stated by FlagTokensExact and FlagTokensOrdered |
| PlayerAction.GetPlayerActionSendsSetFlags | www/assets/js/PlayerAction.js:84-127 | a frame sends the token of every set flag, `equip` with the queued slot, and no token of ranks forward to equip whose flag is clear |
| PlayerAction.GetPlayerActionNoRepeats | www/assets/js/PlayerAction.js:78-149 | every token but `buy` appears at most once in a line |
| PlayerAction.ReloadSentOnce | www/assets/js/PlayerAction.js:116-119 | after `reload()` the next frame sends `reload` exactly once |
| PlayerAction.KeyEventThenFrame | www/assets/js/PlayerAction.js:29-127 | after a key event the next frame sends its token: a held direction, crouch or stand, walk or run, jump, drop, reload, or `equip` with the key's slot; after a movement key is released its direction is not sent |
| PlayerAction.GetPlayerActionOrdered | www/assets/js/PlayerAction.js:78-149 | every line follows the fixed token order, buys first and look-at then attack last |
| PlayerAction.GetPlayerActionBuysFirst | www/assets/js/PlayerAction.js:78-83 | one `buy` token per pending entry, in order, at the head of the line and nowhere else |
| PlayerAction.GetPlayerActionClearsOneShots | www/assets/js/PlayerAction.js:84-133 | after a frame the one-shot flags and attack request are clear, held movement, spraying and the stored shot are unchanged |
| PlayerAction.QuietFrameOmitsOneShots | www/assets/js/PlayerAction.js:96-127 | a frame from a state with one-shot flags clear and no buys sends no one-shot or buy token |
| PlayerAction.SecondFrameOmitsOneShots | www/assets/js/PlayerAction.js:96-127 | an immediate second frame with no new input sends no one-shot or buy token |
| PlayerAction.AttackEndsLine | www/assets/js/PlayerAction.js:129-133 | a requested shot ends the line with the stored look-at and `attack`, clears the request and leaves the last look-at alone |
| PlayerAction.SprayEndsLine | www/assets/js/PlayerAction.js:134-138 | a due spray shot ends the line with the current look-at and `attack` and keeps spraying |
| PlayerAction.IdleSendsChangedLookAt | www/assets/js/PlayerAction.js:139-146 | with no shot, no attack is sent, no look-at but the current one is sent, and the current one is sent exactly when it differs from the last one sent, which it then becomes |
| PlayerAction.IdleLookAtSentOnce | www/assets/js/PlayerAction.js:139-146 | two frames with the same rotation and no shot in either (no attack request, no spray shot due, which includes spraying before the delay and a start time of 0) send its look-at at most once |
| PlayerAction.LineSplitsIntoTokens | www/assets/js/PlayerAction.js:149 | a non-empty line splits on `\|` back into exactly the rendered tokens |
| Text.NatToString | www/assets/js/PlayerAction.js:80 | a number renders as a non-empty run of decimal digits without a leading zero |
| Text.ParseNatToString | www/assets/js/PlayerAction.js:80 | reading a rendered number gives the number back |
| Text.NatToStringInjective | www/assets/js/PlayerAction.js:125 | distinct slot or item numbers render differently |
| Text.SplitJoin | www/assets/js/PlayerAction.js:149 | splitting a `\|`-join of separator-free tokens gives the tokens back |
| SolidSurface.WithDefaultAntiForce | server/src/Core/SolidSurface.php:9 | a surface that keeps the default has anti-force 25123 |
| SolidSurface.AntiForceIgnoresPoint | server/src/Core/SolidSurface.php:9-14 | the anti-force is the same at every point, 25123 for a default surface |
| SolidSurface.GetHitAntiForce | server/src/Core/SolidSurface.php:11-14 | the surface's anti-force, whatever the point; stated by AntiForceIgnoresPoint |
| SolidSurface.GetMoneyAward | server/src/Core/SolidSurface.php:16-19 | 0; stated by SurfaceHitReportsNothing |
| SolidSurface.PlayerWasKilled | server/src/Core/SolidSurface.php:21-24 | false; stated by SurfaceHitReportsNothing |
| SolidSurface.GetPlayer | server/src/Core/SolidSurface.php:26-29 | no player; stated by SurfaceHitReportsNothing |
| SolidSurface.WasHeadShot | server/src/Core/SolidSurface.php:31-34 | false; stated by SurfaceHitReportsNothing |
| SolidSurface.SurfaceHitReportsNothing | server/src/Core/SolidSurface.php:16-34 | a surface hit awards 0 money, reports no kill, no player and no headshot |
| SolidSurface.Serialize | server/src/Core/SolidSurface.php:41-47 | the record has exactly the keys `force` and `plane`, holding the anti-force at the point and the plane |
| SolidSurface.DeserializeSerialize | server/src/Core/SolidSurface.php:41-47 | the serialised record reads back as the same surface |

## Left out

- Bomb thresholds: `Util::millisecondsToFrames` is not part of this model; the frame counts are parameters.
- Bomb distance: `Util::distanceSquared` and the bomb's stored position (`setPosition`, `getPosition`) are not part of this model; the squared distance is a parameter.
- Bomb health effect: `Player::lowerHealth` is not part of this model; the blast returns the damage it would pass.
- Bomb.UnEquip: the parent class's `unEquip` is not part of this model; only the counter reset is modelled.
- Bomb item identity (`getType`, `getSlot`): constant accessors with nothing to prove.
- Inventory store: `BuyMenu` is not part of this model; `store->get` is the `offer` parameter, `store->buy` and the menu rebuilt on reset are dropped.
- Inventory.Reset: the per-item `Item::reset` called without respawn is not modelled; item records are kept as they are.
- Inventory.Purchase: `Player::dropEquippedItem` is not part of this model; its inventory effect is taken to be `RemoveEquipped`.
- Inventory.Equip: the source calls `unEquip` on the item in the equipped slot and fails if that slot is empty; the model does not model that failure or the item's own equip state.
- Inventory.RemoveEquipped: requires the equipped slot to be held, where the source fails reading the equipped item.
- Inventory item internals: `Item::incrementQuantity` is taken as quantity + 1; equip events are opaque tokens naming the slot.
- Inventory accessors `getItems`, `getDollars`, `getArmor`, `getEquipped`: fields of the record.
- Player action host hooks: `game.attackFeedback`, `hud.toggleBuyMenu` and `hud.toggleScore` are dropped; `Date.now()` and `getPlayerMeRotation()` are inputs.
- Player action numbers: times are integers, and each rotation angle is the text JavaScript renders for it. NaN and fractional times are not modelled.
- Text.NatToString: plain decimal digits, which is JavaScript's rendering only below 10^21; from 10^21 on JavaScript uses exponent notation (`1e+21`), which is not modelled. Buy-menu ids and slot numbers are small.
- Enumerations (`InventorySlot`, `BuyMenuItem`, `Action`, `ArmorType` in both programs) are not part of this model; each side uses its own constants, the client's slot numbers declared in `PlayerAction` and the server's in `Inventory`, both numbered knife 0, primary 1, secondary 2, bomb 3.
- `SolidSurface.getPlane` is abstract in the source; the plane is a field of the record.
- Crouch timing (`src/Event/CrouchEvent.php`) is a thin constructor over settings that are not part of this model.
- World geometry, movement, ballistics and player hit volumes are not part of this model.

=== FILE: bomb.dfy ===
/**
 * The bomb's own logic: plant and defuse progress as tick counters with
 * completion thresholds, and the stepped blast-damage table.
 *
 * The thresholds come from converting the configured plant and defuse times
 * to frames, and the victim's squared distance from the detonation point is
 * computed elsewhere; both enter here as plain integers.
 */
module Bomb {
  import opened Wrappers

  const MAX_BLAST_DISTANCE: nat := 1000
  const MAX_BLAST_DISTANCE_SQUARED: nat := MAX_BLAST_DISTANCE * MAX_BLAST_DISTANCE

  /**
   * Damage of the ten blast bands, nearest first. Band i holds the squared
   * distances d with i/10 < d / MAX_BLAST_DISTANCE_SQUARED <= (i+1)/10,
   * band 0 also holding d = 0.
   */
  const BLAST_BANDS: seq<nat> := [500, 92, 84, 74, 61, 49, 26, 12, 7, 4]

  datatype Bomb = Bomb(
    plantTickCount: nat,
    plantTickCountMax: int,
    defuseTickCount: nat,
    defuseTickCountMax: int)

  /** The state of one plant or defuse call: the bomb afterwards and whether the action completed. */
  datatype Progress = Progress(bomb: Bomb, done: bool)

  function New(plantTickCountMax: int, defuseTickCountMax: int): (b: Bomb)
    ensures b.plantTickCount == 0 && b.defuseTickCount == 0
    ensures b.plantTickCountMax == plantTickCountMax && b.defuseTickCountMax == defuseTickCountMax
  {
    Bomb(0, plantTickCountMax, 0, defuseTickCountMax)
  }

  function Reset(b: Bomb): (r: Bomb)
    ensures r.plantTickCount == 0 && r.defuseTickCount == 0
    ensures r.plantTickCountMax == b.plantTickCountMax && r.defuseTickCountMax == b.defuseTickCountMax
  {
    b.(plantTickCount := 0, defuseTickCount := 0)
  }

  /** Putting the bomb away abandons any plant or defuse in progress. */
  function UnEquip(b: Bomb): (r: Bomb)
    ensures r.plantTickCount == 0 && r.defuseTickCount == 0
    ensures r.plantTickCountMax == b.plantTickCountMax && r.defuseTickCountMax == b.defuseTickCountMax
  {
    Reset(b)
  }

  function Plant(b: Bomb): (r: Progress)
    ensures r.bomb.plantTickCount == b.plantTickCount + 1
    ensures r.bomb.(plantTickCount := b.plantTickCount) == b
    ensures r.done <==> r.bomb.plantTickCount >= b.plantTickCountMax
  {
    var b' := b.(plantTickCount := b.plantTickCount + 1);
    Progress(b', b'.plantTickCount >= b'.plantTickCountMax)
  }

  /** Ticks one defuse call adds: a kit counts double. */
  function DefuseStep(hasKit: bool): nat {
    if hasKit then 2 else 1
  }

  function Defuse(b: Bomb, hasKit: bool): (r: Progress)
    ensures r.bomb.defuseTickCount == b.defuseTickCount + (if hasKit then 2 else 1)
    ensures r.bomb.(defuseTickCount := b.defuseTickCount) == b
    ensures r.done <==> r.bomb.defuseTickCount >= b.defuseTickCountMax
  {
    var b' := b.(defuseTickCount := b.defuseTickCount + DefuseStep(hasKit));
    Progress(b', b'.defuseTickCount >= b'.defuseTickCountMax)
  }

  /** `n` consecutive plant calls; `done` is what the last one returned. */
  function PlantCalls(b: Bomb, n: nat): Progress
    requires n >= 1
    decreases n
  {
    var p := Plant(b);
    if n == 1 then p else PlantCalls(p.bomb, n - 1)
  }

  /** `n` consecutive defuse calls with or without a kit; `done` is what the last one returned. */
  function DefuseCalls(b: Bomb, hasKit: bool, n: nat): Progress
    requires n >= 1
    decreases n
  {
    var p := Defuse(b, hasKit);
    if n == 1 then p else DefuseCalls(p.bomb, hasKit, n - 1)
  }

  lemma {:induction false} PlantCallsCount(b: Bomb, n: nat)
    requires n >= 1
    ensures PlantCalls(b, n).bomb == b.(plantTickCount := b.plantTickCount + n)
    ensures PlantCalls(b, n).done <==> b.plantTickCount + n >= b.plantTickCountMax
    decreases n
  {
    if n > 1 {
      PlantCallsCount(Plant(b).bomb, n - 1);
    }
  }

  /** Planting completes on call number max(1, plantTickCountMax) after a reset, and no earlier. */
  lemma PlantCompletesAfterMaxCalls(b: Bomb, n: nat)
    requires n >= 1
    ensures PlantCalls(Reset(b), n).done <==> n >= b.plantTickCountMax
  {
    PlantCallsCount(Reset(b), n);
  }

  /** Once a plant call has reported completion, every later plant call does too (until a reset). */
  lemma PlantStaysDone(b: Bomb, n: nat, m: nat)
    requires 1 <= n <= m
    requires PlantCalls(b, n).done
    ensures PlantCalls(b, m).done
  {
    PlantCallsCount(b, n);
    PlantCallsCount(b, m);
  }

  lemma {:induction false} DefuseCallsCount(b: Bomb, hasKit: bool, n: nat)
    requires n >= 1
    ensures DefuseCalls(b, hasKit, n).bomb == b.(defuseTickCount := b.defuseTickCount + n * DefuseStep(hasKit))
    ensures DefuseCalls(b, hasKit, n).done <==> b.defuseTickCount + n * DefuseStep(hasKit) >= b.defuseTickCountMax
    decreases n
  {
    if n > 1 {
      DefuseCallsCount(Defuse(b, hasKit).bomb, hasKit, n - 1);
    }
  }

  /** Number of defuse calls needed from a reset bomb: ceil(max / 2) with a kit, max without, and at least one. */
  function DefuseCallsNeeded(defuseTickCountMax: int, hasKit: bool): nat {
    if defuseTickCountMax <= 1 then 1
    else if hasKit then (defuseTickCountMax + 1) / 2
    else defuseTickCountMax
  }

  /** From a reset bomb, the n-th defuse call completes exactly when n reaches the number of calls needed. */
  lemma DefuseCompletesAfterNeededCalls(b: Bomb, hasKit: bool, n: nat)
    requires n >= 1
    ensures DefuseCalls(Reset(b), hasKit, n).done <==> n >= DefuseCallsNeeded(b.defuseTickCountMax, hasKit)
  {
    DefuseCallsCount(Reset(b), hasKit, n);
  }

  /** A kit never needs more calls than defusing without one. */
  lemma KitNeverSlower(defuseTickCountMax: int)
    ensures DefuseCallsNeeded(defuseTickCountMax, true) <= DefuseCallsNeeded(defuseTickCountMax, false)
    ensures defuseTickCountMax >= 2 ==>
      DefuseCallsNeeded(defuseTickCountMax, true) < DefuseCallsNeeded(defuseTickCountMax, false)
  {
  }

  /**
   * Damage the blast deals to a player at the given squared distance, or None
   * when the player is out of range and their health is left alone. The PHP
   * compares against `max * .9`, ..., `max * .1`; each such product is exactly
   * k * 100000 as a double, so the comparison `10 * d > k * max` is exact.
   */
  function ExplodeDamageToPlayer(distanceSquared: nat): (damage: Option<nat>)
    ensures damage.None? <==> distanceSquared > MAX_BLAST_DISTANCE_SQUARED
    ensures damage.Some? ==> damage.value in BLAST_BANDS
    ensures 10 * distanceSquared <= MAX_BLAST_DISTANCE_SQUARED ==> damage == Some(500)
  {
    var d := 10 * distanceSquared;
    var m := MAX_BLAST_DISTANCE_SQUARED;
    if distanceSquared > m then None
    else if d > 9 * m then Some(4)
    else if d > 8 * m then Some(7)
    else if d > 7 * m then Some(12)
    else if d > 6 * m then Some(26)
    else if d > 5 * m then Some(49)
    else if d > 4 * m then Some(61)
    else if d > 3 * m then Some(74)
    else if d > 2 * m then Some(84)
    else if d > m then Some(92)
    else Some(500)
  }

  /** Health actually taken: zero when the blast does not reach. */
  function BlastLoss(distanceSquared: nat): nat {
    ExplodeDamageToPlayer(distanceSquared).GetOr(0)
  }

  /** The band a squared distance falls in, computed by division rather than by the comparison chain. */
  function BandIndex(distanceSquared: nat): (i: nat)
    requires distanceSquared <= MAX_BLAST_DISTANCE_SQUARED
    ensures i < |BLAST_BANDS|
  {
    if distanceSquared == 0 then 0
    else (10 * distanceSquared - 1) / MAX_BLAST_DISTANCE_SQUARED
  }

  /** The comparison chain agrees with the band table indexed by the fraction of the maximum. */
  lemma ExplodeDamageMatchesBands(distanceSquared: nat)
    requires distanceSquared <= MAX_BLAST_DISTANCE_SQUARED
    ensures ExplodeDamageToPlayer(distanceSquared) == Some(BLAST_BANDS[BandIndex(distanceSquared)])
  {
    var i := BandIndex(distanceSquared);
    var m := MAX_BLAST_DISTANCE_SQUARED;
    if distanceSquared > 0 {
      assert i * m <= 10 * distanceSquared - 1 < (i + 1) * m;
    }
  }

  /** Blast damage never grows with distance, counting the out-of-range zero. */
  lemma BlastLossMonotone(near: nat, far: nat)
    requires near <= far
    ensures BlastLoss(far) <= BlastLoss(near)
  {
  }
}

=== FILE: inventory.dfy ===
/**
 * A player's inventory: items keyed by slot, the equipped and last-equipped
 * slots, the armor worn and a dollar balance held within [0, 16000].
 *
 * Items are abstract records. The buy menu is an oracle: a purchase receives
 * whatever the menu offered (or None) for the requested entry. The events
 * returned by equipping are opaque tokens naming the equipped slot.
 */
module Inventory {
  import opened Wrappers

  type SlotId = int

  const SLOT_KNIFE: SlotId := 0
  const SLOT_PRIMARY: SlotId := 1
  const SLOT_SECONDARY: SlotId := 2
  const SLOT_BOMB: SlotId := 3

  const MAX_DOLLARS: int := 16000

  datatype ArmorType = NoArmor | Body | BodyAndHead

  datatype ItemKind = Flashbang | Kevlar(armor: ArmorType) | OtherItem

  datatype Item = Item(
    slot: SlotId,
    price: int,
    quantity: int,
    maxQuantity: int,
    droppable: bool,
    multiPurchase: bool,
    kind: ItemKind)

  /** What `Item::equip` hands back; only the slot it concerns is modelled. */
  datatype EquipEvent = EquipEvent(slot: SlotId)

  /** Freshly constructed weapons a reset hands out. */
  datatype Starters = Starters(knife: Item, glock: Item, usp: Item)

  datatype Inventory = Inventory(
    items: map<SlotId, Item>,
    dollars: int,
    equippedSlot: SlotId,
    lastEquippedSlot: SlotId,
    armor: ArmorType)

  function IncrementQuantity(item: Item): Item {
    item.(quantity := item.quantity + 1)
  }

  function StarterPistol(starters: Starters, isAttackerSide: bool): Item {
    if isAttackerSide then starters.glock else starters.usp
  }

  /**
   * Round reset. On respawn the player keeps only a knife and the side's
   * pistol; otherwise everything is kept and a missing pistol is replaced.
   * The bomb never survives a reset.
   */
  function Reset(inv: Inventory, isAttackerSide: bool, respawn: bool, starters: Starters): (r: Inventory)
    ensures SLOT_BOMB !in r.items
    ensures SLOT_SECONDARY in r.items
    ensures r.dollars == inv.dollars
    ensures respawn ==>
      && r.items == map[SLOT_KNIFE := starters.knife, SLOT_SECONDARY := StarterPistol(starters, isAttackerSide)]
      && r.equippedSlot == SLOT_SECONDARY
      && r.lastEquippedSlot == SLOT_KNIFE
      && r.armor == NoArmor
    ensures !respawn ==>
      && r.equippedSlot == inv.equippedSlot
      && r.lastEquippedSlot == inv.lastEquippedSlot
      && r.armor == inv.armor
      && r.items.Keys == inv.items.Keys - {SLOT_BOMB} + {SLOT_SECONDARY}
      && (forall s :: s in inv.items && s != SLOT_BOMB ==> r.items[s] == inv.items[s])
      && (SLOT_SECONDARY !in inv.items ==> r.items[SLOT_SECONDARY] == StarterPistol(starters, isAttackerSide))
  {
    var kept :=
      if respawn then
        inv.(items := map[SLOT_KNIFE := starters.knife, SLOT_SECONDARY := StarterPistol(starters, isAttackerSide)],
             equippedSlot := SLOT_SECONDARY,
             lastEquippedSlot := SLOT_KNIFE,
             armor := NoArmor)
      else if SLOT_SECONDARY !in inv.items then
        inv.(items := inv.items[SLOT_SECONDARY := StarterPistol(starters, isAttackerSide)])
      else
        inv;
    kept.(items := kept.items - {SLOT_BOMB})
  }

  /** A new inventory: a respawn reset of an empty one with no money. */
  function New(isAttackerSide: bool, starters: Starters): (r: Inventory)
    ensures r.dollars == 0
    ensures r.items == map[SLOT_KNIFE := starters.knife, SLOT_SECONDARY := StarterPistol(starters, isAttackerSide)]
    ensures r.equippedSlot == SLOT_SECONDARY && r.lastEquippedSlot == SLOT_KNIFE
    ensures r.armor == NoArmor
  {
    Reset(Inventory(map[], 0, SLOT_KNIFE, SLOT_KNIFE, NoArmor), isAttackerSide, true, starters)
  }

  /** Falls back to the last equipped slot if it is still held, else to the knife. */
  function UpdateEquippedSlot(inv: Inventory): (r: Inventory)
    ensures r.equippedSlot == (if inv.lastEquippedSlot in inv.items then inv.lastEquippedSlot else SLOT_KNIFE)
    ensures r == inv.(equippedSlot := r.equippedSlot)
  {
    if inv.lastEquippedSlot in inv.items then inv.(equippedSlot := inv.lastEquippedSlot)
    else inv.(equippedSlot := SLOT_KNIFE)
  }

  /** Drops the bomb slot and re-selects the equipped slot; returns the slot now equipped. */
  function RemoveBomb(inv: Inventory): (r: (Inventory, SlotId))
    ensures r.0.items == inv.items - {SLOT_BOMB}
    ensures r.1 == r.0.equippedSlot
    ensures r.1 == (if inv.lastEquippedSlot in r.0.items then inv.lastEquippedSlot else SLOT_KNIFE)
    ensures r.0 == inv.(items := r.0.items, equippedSlot := r.1)
  {
    var inv' := UpdateEquippedSlot(inv.(items := inv.items - {SLOT_BOMB}));
    (inv', inv'.equippedSlot)
  }

  /**
   * Removes the equipped item if the user may drop it, and returns it.
   * Reading the equipped item fails in the source when its slot is empty.
   */
  function RemoveEquipped(inv: Inventory): (r: (Inventory, Option<Item>))
    requires inv.equippedSlot in inv.items
    ensures !inv.items[inv.equippedSlot].droppable ==> r == (inv, None)
    ensures inv.items[inv.equippedSlot].droppable ==>
      && r.1 == Some(inv.items[inv.equippedSlot])
      && r.0.items == inv.items - {inv.equippedSlot}
      && r.0.equippedSlot == (if inv.lastEquippedSlot in r.0.items then inv.lastEquippedSlot else SLOT_KNIFE)
      && r.0 == inv.(items := r.0.items, equippedSlot := r.0.equippedSlot)
  {
    var item := inv.items[inv.equippedSlot];
    if !item.droppable then (inv, None)
    else (UpdateEquippedSlot(inv.(items := inv.items - {inv.equippedSlot})), Some(item))
  }

  /**
   * Affordable, and the slot is either free or holds an item that may be
   * bought again. The held item decides, not the candidate.
   */
  function CanBuy(inv: Inventory, item: Item): (ok: bool)
    ensures item.price > inv.dollars ==> !ok
    ensures item.price <= inv.dollars ==>
      (!ok <==> item.slot in inv.items && !inv.items[item.slot].multiPurchase)
  {
    if item.price > inv.dollars then false
    else if item.slot in inv.items then inv.items[item.slot].multiPurchase
    else true
  }

  /** Switches to the item in `slot`, remembering the previous slot; nothing happens for an empty slot. */
  function Equip(inv: Inventory, slot: SlotId): (r: (Inventory, Option<EquipEvent>))
    ensures slot !in inv.items ==> r == (inv, None)
    ensures slot in inv.items ==>
      && r.0 == inv.(lastEquippedSlot := inv.equippedSlot, equippedSlot := slot)
      && r.1 == Some(EquipEvent(slot))
  {
    if slot !in inv.items then (inv, None)
    else (inv.(lastEquippedSlot := inv.equippedSlot, equippedSlot := slot), Some(EquipEvent(slot)))
  }

  /**
   * Buys what the menu offered. A flashbang already held gains one in
   * quantity; any other held item in the slot is equipped and dropped first.
   * Kevlar only sets the armor type. Otherwise the bought item is placed in
   * its slot and equipped. The player's drop of the replaced item is its
   * inventory removal, `RemoveEquipped`.
   */
  function Purchase(inv: Inventory, offer: Option<Item>): (r: (Inventory, Option<EquipEvent>))
    ensures (offer.None? || !CanBuy(inv, offer.value)) ==> r == (inv, None)
    ensures offer.Some? && CanBuy(inv, offer.value) ==> r.0.dollars == inv.dollars - offer.value.price
  {
    if offer.None? || !CanBuy(inv, offer.value) then (inv, None)
    else
      var item := offer.value;
      var paid := inv.(dollars := inv.dollars - item.price);
      var made :=
        if item.slot !in paid.items then (paid, item)
        else
          var have := paid.items[item.slot];
          if have.kind == Flashbang then
            var more := IncrementQuantity(have);
            (paid.(items := paid.items[item.slot := more]), more)
          else
            (RemoveEquipped(Equip(paid, item.slot).0).0, item);
      var (before, bought) := made;
      if bought.kind.Kevlar? then (before.(armor := bought.kind.armor), None)
      else Equip(before.(items := before.items[bought.slot := bought]), bought.slot)
  }

  /** Takes an item from the ground: refused when the held one is at its maximum quantity. */
  function Pickup(inv: Inventory, item: Item): (r: (Inventory, bool))
    ensures item.slot in inv.items && inv.items[item.slot].quantity == inv.items[item.slot].maxQuantity ==>
      r == (inv, false)
    ensures item.slot in inv.items && inv.items[item.slot].quantity != inv.items[item.slot].maxQuantity ==>
      r == (inv.(items := inv.items[item.slot := IncrementQuantity(inv.items[item.slot])]), true)
    ensures item.slot !in inv.items ==> r == (inv.(items := inv.items[item.slot := item]), true)
  {
    if item.slot in inv.items then
      var have := inv.items[item.slot];
      if have.quantity == have.maxQuantity then (inv, false)
      else (inv.(items := inv.items[item.slot := IncrementQuantity(have)]), true)
    else (inv.(items := inv.items[item.slot := item]), true)
  }

  /** Adds (or, for a negative amount, takes) money, keeping the balance within [0, 16000]. */
  function EarnMoney(inv: Inventory, amount: int): (r: Inventory)
    ensures 0 <= r.dollars <= MAX_DOLLARS
    ensures 0 <= inv.dollars + amount <= MAX_DOLLARS ==> r.dollars == inv.dollars + amount
    ensures inv.dollars + amount < 0 ==> r.dollars == 0
    ensures inv.dollars + amount > MAX_DOLLARS ==> r.dollars == MAX_DOLLARS
    ensures r == inv.(dollars := r.dollars)
  {
    var d := inv.dollars + amount;
    inv.(dollars := if d < 0 then 0 else if d > MAX_DOLLARS then MAX_DOLLARS else d)
  }

  /** Quantity held per filled slot. */
  function FilledSlots(inv: Inventory): (r: map<SlotId, int>)
    ensures r.Keys == inv.items.Keys
    ensures forall s :: s in r ==> r[s] == inv.items[s].quantity
  {
    map s | s in inv.items :: inv.items[s].quantity
  }

  function Has(inv: Inventory, slot: SlotId): (r: bool)
    ensures r <==> slot in inv.items
  {
    slot in inv.items
  }

  /** Every held item sits in its own slot. */
  predicate SlotsMatch(inv: Inventory) {
    forall s :: s in inv.items ==> inv.items[s].slot == s
  }

  /**
   * What the operations keep true between calls: the balance is in range,
   * the knife is held and cannot be dropped, the equipped slot is filled,
   * and items sit in their own slots.
   */
  predicate Valid(inv: Inventory) {
    && 0 <= inv.dollars <= MAX_DOLLARS
    && SLOT_KNIFE in inv.items && !inv.items[SLOT_KNIFE].droppable
    && inv.equippedSlot in inv.items
    && SlotsMatch(inv)
  }

  predicate StartersFit(starters: Starters) {
    && starters.knife.slot == SLOT_KNIFE && !starters.knife.droppable
    && starters.glock.slot == SLOT_SECONDARY
    && starters.usp.slot == SLOT_SECONDARY
  }

  lemma NewIsValid(isAttackerSide: bool, starters: Starters)
    requires StartersFit(starters)
    ensures Valid(New(isAttackerSide, starters))
  {
    var r := New(isAttackerSide, starters);
    assert r.items == map[SLOT_KNIFE := starters.knife, SLOT_SECONDARY := StarterPistol(starters, isAttackerSide)];
  }

  /** A reset keeps the invariant, unless the bomb was equipped and the player did not respawn. */
  lemma ResetKeepsValid(inv: Inventory, isAttackerSide: bool, respawn: bool, starters: Starters)
    requires Valid(inv) && StartersFit(starters)
    requires respawn || inv.equippedSlot != SLOT_BOMB
    ensures Valid(Reset(inv, isAttackerSide, respawn, starters))
  {
    var r := Reset(inv, isAttackerSide, respawn, starters);
    if respawn {
      assert r.items == map[SLOT_KNIFE := starters.knife, SLOT_SECONDARY := StarterPistol(starters, isAttackerSide)];
    } else {
      assert SLOT_KNIFE in r.items && r.items[SLOT_KNIFE] == inv.items[SLOT_KNIFE];
      assert r.equippedSlot in r.items;
    }
  }

  /**
   * Keeping the equipment over a round while holding the bomb leaves the
   * equipped slot pointing at the removed bomb.
   */
  lemma ResetWithBombEquippedEmptiesEquippedSlot(inv: Inventory, isAttackerSide: bool, starters: Starters)
    requires Valid(inv) && inv.equippedSlot == SLOT_BOMB
    ensures var r := Reset(inv, isAttackerSide, false, starters);
      r.equippedSlot !in r.items
  {
  }

  lemma EquipKeepsValid(inv: Inventory, slot: SlotId)
    requires Valid(inv)
    ensures Valid(Equip(inv, slot).0)
  {
  }

  lemma RemoveBombKeepsValid(inv: Inventory)
    requires Valid(inv)
    ensures Valid(RemoveBomb(inv).0)
  {
  }

  lemma RemoveEquippedKeepsValid(inv: Inventory)
    requires Valid(inv)
    ensures Valid(RemoveEquipped(inv).0)
  {
  }

  lemma PickupKeepsValid(inv: Inventory, item: Item)
    requires Valid(inv)
    ensures Valid(Pickup(inv, item).0)
  {
  }

  lemma EarnMoneyKeepsValid(inv: Inventory, amount: int)
    requires Valid(inv)
    ensures Valid(EarnMoney(inv, amount))
  {
  }

  /** A purchase keeps the invariant when prices are not negative and nothing droppable is sold for the knife slot. */
  lemma PurchaseKeepsValid(inv: Inventory, offer: Option<Item>)
    requires Valid(inv)
    requires offer.Some? ==> offer.value.price >= 0 && (offer.value.slot == SLOT_KNIFE ==> !offer.value.droppable)
    ensures Valid(Purchase(inv, offer).0)
  {
    if offer.Some? && CanBuy(inv, offer.value) {
      var item := offer.value;
      var paid := inv.(dollars := inv.dollars - item.price);
      if item.slot in paid.items && paid.items[item.slot].kind != Flashbang {
        var eq := Equip(paid, item.slot).0;
        assert eq.equippedSlot == item.slot;
        RemoveEquippedKeepsValid(eq);
      }
    }
  }

  /** Buying Kevlar into an empty slot only pays and sets the armor type. */
  lemma PurchaseKevlar(inv: Inventory, item: Item)
    requires CanBuy(inv, item) && item.kind.Kevlar? && item.slot !in inv.items
    ensures Purchase(inv, Some(item)) == (inv.(dollars := inv.dollars - item.price, armor := item.kind.armor), None)
  {
  }

  /**
   * Buying Kevlar while its slot holds something other than a flashbang:
   * the held item is equipped and dropped if it may be, the armor is set,
   * and the Kevlar itself is not placed in any slot.
   */
  lemma PurchaseKevlarOverHeld(inv: Inventory, item: Item)
    requires CanBuy(inv, item) && item.kind.Kevlar?
    requires item.slot in inv.items && inv.items[item.slot].kind != Flashbang
    ensures var r := Purchase(inv, Some(item));
      var held := inv.items[item.slot];
      && r.0.items == (if held.droppable then inv.items - {item.slot} else inv.items)
      && r.0.lastEquippedSlot == inv.equippedSlot
      && r.0.equippedSlot ==
        (if !held.droppable then item.slot
         else if inv.equippedSlot in inv.items && inv.equippedSlot != item.slot then inv.equippedSlot
         else SLOT_KNIFE)
      && r.0.dollars == inv.dollars - item.price
      && r.0.armor == item.kind.armor
      && r.1 == None
  {
  }

  /** Buying another flashbang raises the held one's quantity and equips it. */
  lemma PurchaseFlashbangRestock(inv: Inventory, item: Item)
    requires SlotsMatch(inv) && CanBuy(inv, item)
    requires item.slot in inv.items && inv.items[item.slot].kind == Flashbang
    ensures var r := Purchase(inv, Some(item));
      && r.0.items == inv.items[item.slot := IncrementQuantity(inv.items[item.slot])]
      && r.0.equippedSlot == item.slot
      && r.0.lastEquippedSlot == inv.equippedSlot
      && r.0.armor == inv.armor
      && r.1 == Some(EquipEvent(item.slot))
  {
  }

  /** Buying into an empty slot places the item there and equips it. */
  lemma PurchaseIntoEmptySlot(inv: Inventory, item: Item)
    requires CanBuy(inv, item) && !item.kind.Kevlar? && item.slot !in inv.items
    ensures Purchase(inv, Some(item)) ==
      (inv.(items := inv.items[item.slot := item], dollars := inv.dollars - item.price,
            lastEquippedSlot := inv.equippedSlot, equippedSlot := item.slot),
       Some(EquipEvent(item.slot)))
  {
  }

  /**
   * Buying over a held item that is not a flashbang drops the held one and
   * equips the new one; the other slots are untouched. The slot remembered
   * as last equipped is the one that was equipped before, if still held,
   * else the knife; when the held item could not be dropped it is the
   * bought slot itself.
   */
  lemma PurchaseReplaces(inv: Inventory, item: Item)
    requires CanBuy(inv, item) && !item.kind.Kevlar?
    requires item.slot in inv.items && inv.items[item.slot].kind != Flashbang
    ensures var r := Purchase(inv, Some(item));
      var held := inv.items[item.slot];
      && r.0.items == inv.items[item.slot := item]
      && r.0.dollars == inv.dollars - item.price
      && r.0.equippedSlot == item.slot
      && r.0.armor == inv.armor
      && r.0.lastEquippedSlot ==
           (if !held.droppable then item.slot
            else if inv.equippedSlot in inv.items && inv.equippedSlot != item.slot then inv.equippedSlot
            else SLOT_KNIFE)
      && r.1 == Some(EquipEvent(item.slot))
  {
    var paid := inv.(dollars := inv.dollars - item.price);
    var eq := Equip(paid, item.slot).0;
    var dropped := RemoveEquipped(eq).0;
    if inv.items[item.slot].droppable {
      assert dropped.items == inv.items - {item.slot};
      assert dropped.items[item.slot := item] == inv.items[item.slot := item];
    }
  }

  /** The filled-slot report lists exactly the held slots. */
  lemma FilledSlotsAreHeld(inv: Inventory, slot: SlotId)
    ensures slot in FilledSlots(inv) <==> Has(inv, slot)
  {
  }
}

=== FILE: player_action.dfy ===
/**
 * The browser client's input state machine. Key callbacks set flags; once
 * per frame the flags are turned into a `|`-joined command line for the
 * server. Movement flags are held until the key is released; the others are
 * cleared once sent.
 *
 * The host's pending buy list, the player's rotation (each angle as the
 * host renders it in text) and the clock are explicit inputs.
 */
module PlayerAction {
  import opened Wrappers
  import Text

  /** Key bindings the client reacts to. */
  datatype Action =
    | MoveForward | MoveLeft | MoveBack | MoveRight
    | JumpKey | CrouchKey | WalkKey | DropKey | ReloadKey
    | EquipKnife | EquipPrimary | EquipSecondary | EquipBomb
    | BuyMenu | ScoreBoard

  /**
   * The client's own inventory slot numbers (its `InventorySlot` enumeration),
   * sent with `equip`; they agree with the server's slot numbering.
   */
  const SLOT_KNIFE: nat := 0
  const SLOT_PRIMARY: nat := 1
  const SLOT_SECONDARY: nat := 2
  const SLOT_BOMB: nat := 3

  datatype States = States(
    shootLookAt: string,
    lastLookAt: string,
    sprayTriggerStartMs: Option<int>,
    moveForward: bool,
    moveBackward: bool,
    moveLeft: bool,
    moveRight: bool,
    jumping: bool,
    crouching: bool,
    standing: bool,
    attack: bool,
    shifting: bool,
    running: bool,
    reload: bool,
    equip: Option<nat>,
    drop: bool,
    spraying: bool)

  const INITIAL: States :=
    States("", "", None, false, false, false, false, false, false, false, false, false, false, false, None, false, false)

  /** One command of the action line. */
  datatype Token =
    | Buy(item: nat)
    | Forward | Left | Right | Backward
    | Jump | Crouch | Stand | Walk | Run | Reload | Drop
    | Equip(slot: nat)
    | LookAt(text: string)
    | Attack

  function Render(t: Token): string {
    match t
    case Buy(item) => "buy " + Text.NatToString(item)
    case Forward => "forward"
    case Left => "left"
    case Right => "right"
    case Backward => "backward"
    case Jump => "jump"
    case Crouch => "crouch"
    case Stand => "stand"
    case Walk => "walk"
    case Run => "run"
    case Reload => "reload"
    case Drop => "drop"
    case Equip(slot) => "equip " + Text.NatToString(slot)
    case LookAt(text) => text
    case Attack => "attack"
  }

  function RenderAll(tokens: seq<Token>): (texts: seq<string>)
    ensures |texts| == |tokens|
    ensures forall i :: 0 <= i < |tokens| ==> texts[i] == Render(tokens[i])
  {
    seq(|tokens|, i requires 0 <= i < |tokens| => Render(tokens[i]))
  }

  /** Position of a token kind in the fixed order of the action line. */
  function Rank(t: Token): nat {
    match t
    case Buy(_) => 0
    case Forward => 1
    case Left => 2
    case Right => 3
    case Backward => 4
    case Jump => 5
    case Crouch => 6
    case Stand => 7
    case Walk => 8
    case Run => 9
    case Reload => 10
    case Drop => 11
    case Equip(_) => 12
    case LookAt(_) => 13
    case Attack => 14
  }

  /**
   * Tokens appear in rank order, and only buy tokens may share a rank: each
   * token ranks strictly below the next unless both are buys.
   */
  predicate Ordered(tokens: seq<Token>) {
    forall i :: 0 < i < |tokens| ==>
      Rank(tokens[i - 1]) < Rank(tokens[i]) || (Rank(tokens[i - 1]) == 0 && Rank(tokens[i]) == 0)
  }

  function LookAtText(horizontal: string, vertical: string): string {
    "lookAt " + horizontal + " " + vertical
  }

  /** The spraying flag and its start time are set and cleared together. */
  predicate Valid(st: States) {
    st.spraying <==> st.sprayTriggerStartMs.Some?
  }

  predicate OneShotsClear(st: States) {
    && !st.jumping && !st.crouching && !st.standing && !st.shifting && !st.running
    && !st.reload && !st.drop && st.equip.None?
  }

  predicate SameMovement(a: States, b: States) {
    && a.moveForward == b.moveForward && a.moveLeft == b.moveLeft
    && a.moveRight == b.moveRight && a.moveBackward == b.moveBackward
  }

  predicate SameOneShots(a: States, b: States) {
    && a.jumping == b.jumping && a.crouching == b.crouching && a.standing == b.standing
    && a.shifting == b.shifting && a.running == b.running && a.reload == b.reload
    && a.drop == b.drop && a.equip == b.equip
  }

  /** `attack([x, y])`: request one shot aimed at the given rotation. */
  function OnAttack(st: States, x: string, y: string): (r: States)
    ensures r.attack && r.shootLookAt == LookAtText(x, y)
    ensures r.(attack := st.attack, shootLookAt := st.shootLookAt) == st
  {
    st.(attack := true, shootLookAt := LookAtText(x, y))
  }

  /** `sprayingEnable()`, called at time `nowMs`. */
  function SprayingEnable(st: States, nowMs: int): (r: States)
    ensures r.spraying && r.sprayTriggerStartMs == Some(nowMs)
    ensures r.(spraying := st.spraying, sprayTriggerStartMs := st.sprayTriggerStartMs) == st
  {
    st.(sprayTriggerStartMs := Some(nowMs), spraying := true)
  }

  function SprayingDisable(st: States): (r: States)
    ensures !st.spraying ==> r == st
    ensures st.spraying ==> r == st.(spraying := false, sprayTriggerStartMs := None)
  {
    if !st.spraying then st
    else st.(spraying := false, sprayTriggerStartMs := None)
  }

  /** `equip(slotId)`: stops spraying and queues a slot switch. */
  function OnEquip(st: States, slot: nat): (r: States)
    ensures Valid(st) ==> !r.spraying && r.sprayTriggerStartMs.None?
    ensures !st.spraying ==> r == st.(equip := Some(slot))
    ensures st.spraying ==> r == st.(equip := Some(slot), spraying := false, sprayTriggerStartMs := None)
  {
    SprayingDisable(st).(equip := Some(slot))
  }

  /** `reload()`: queues one reload command. */
  function OnReload(st: States): States {
    st.(reload := true)
  }

  /** A key press (`enabled`) or release reported for one binding. */
  function OnAction(st: States, action: Action, enabled: bool): (r: States)
    ensures action == CrouchKey ==> r == (if enabled then st.(crouching := true) else st.(standing := true))
    ensures action == WalkKey ==> r == (if enabled then st.(shifting := true) else st.(running := true))
    ensures !enabled && action !in {MoveForward, MoveLeft, MoveBack, MoveRight, CrouchKey, WalkKey} ==> r == st
    ensures Valid(st) ==> Valid(r)
    ensures action !in {MoveForward, MoveLeft, MoveBack, MoveRight} ==> SameMovement(r, st)
  {
    match action
    case MoveForward => st.(moveForward := enabled)
    case MoveLeft => st.(moveLeft := enabled)
    case MoveBack => st.(moveBackward := enabled)
    case MoveRight => st.(moveRight := enabled)
    case JumpKey => if enabled then st.(jumping := true) else st
    case CrouchKey => if enabled then st.(crouching := true) else st.(standing := true)
    case WalkKey => if enabled then st.(shifting := true) else st.(running := true)
    case DropKey => if enabled then st.(drop := true) else st
    case ReloadKey => if enabled then OnReload(st) else st
    case EquipKnife => if enabled then OnEquip(st, SLOT_KNIFE) else st
    case EquipPrimary => if enabled then OnEquip(st, SLOT_PRIMARY) else st
    case EquipSecondary => if enabled then OnEquip(st, SLOT_SECONDARY) else st
    case EquipBomb => if enabled then OnEquip(st, SLOT_BOMB) else st
    case BuyMenu => st
    case ScoreBoard => st
  }

  /** A movement key sets its flag to the key's state and changes nothing else. */
  lemma MoveKeyCallbacks(st: States, enabled: bool)
    ensures OnAction(st, MoveForward, enabled) == st.(moveForward := enabled)
    ensures OnAction(st, MoveLeft, enabled) == st.(moveLeft := enabled)
    ensures OnAction(st, MoveBack, enabled) == st.(moveBackward := enabled)
    ensures OnAction(st, MoveRight, enabled) == st.(moveRight := enabled)
  {
  }

  /** Pressing jump, drop or reload queues that command only; the menu keys leave the state alone. */
  lemma CommandKeyCallbacks(st: States, enabled: bool)
    ensures OnAction(st, JumpKey, true) == st.(jumping := true)
    ensures OnAction(st, DropKey, true) == st.(drop := true)
    ensures OnAction(st, ReloadKey, true) == st.(reload := true)
    ensures OnAction(st, BuyMenu, enabled) == st && OnAction(st, ScoreBoard, enabled) == st
  {
  }

  /** Pressing an equip key is `equip` of that key's slot. */
  lemma EquipKeyCallbacks(st: States)
    ensures OnAction(st, EquipKnife, true) == OnEquip(st, SLOT_KNIFE)
    ensures OnAction(st, EquipPrimary, true) == OnEquip(st, SLOT_PRIMARY)
    ensures OnAction(st, EquipSecondary, true) == OnEquip(st, SLOT_SECONDARY)
    ensures OnAction(st, EquipBomb, true) == OnEquip(st, SLOT_BOMB)
  {
  }

  function BuyTokens(buyList: seq<nat>): (tokens: seq<Token>)
    ensures |tokens| == |buyList|
    ensures forall i :: 0 <= i < |tokens| ==> tokens[i] == Buy(buyList[i])
  {
    seq(|buyList|, i requires 0 <= i < |buyList| => Buy(buyList[i]))
  }

  /** Whether the spray branch fires: JavaScript treats a start time of 0 as unset. */
  predicate SprayFires(st: States, nowMs: int, sprayTriggerDeltaMs: int) {
    && st.spraying
    && st.sprayTriggerStartMs.Some?
    && st.sprayTriggerStartMs.value != 0
    && st.sprayTriggerStartMs.value + sprayTriggerDeltaMs < nowMs
  }

  datatype Aim = Aim(tokens: seq<Token>, states: States)

  /**
   * The closing part of the line: an explicit shot, else a spray shot, else
   * the current look direction `lookAt` when it changed.
   */
  function AimTokens(st: States, lookAt: string, nowMs: int, sprayTriggerDeltaMs: int): (r: Aim)
    ensures AimShaped(r.tokens) && !r.states.attack
    ensures SameMovement(r.states, st) && SameOneShots(r.states, st)
    ensures r.states.spraying == st.spraying && r.states.sprayTriggerStartMs == st.sprayTriggerStartMs
  {
    if st.attack then
      Aim([LookAt(st.shootLookAt), Attack], st.(attack := false))
    else if SprayFires(st, nowMs, sprayTriggerDeltaMs) then
      Aim([LookAt(lookAt), Attack], st)
    else
      IdleAim(st, lookAt)
  }

  /** No shot: the look direction is sent only when it differs from the last one sent. */
  function IdleAim(st: States, lookAt: string): (r: Aim)
    ensures AimShaped(r.tokens) && r.states.attack == st.attack && r.states.lastLookAt == lookAt
    ensures forall t :: t in r.tokens ==> t == LookAt(lookAt)
    ensures r.tokens == [] <==> st.lastLookAt == lookAt
    ensures SameMovement(r.states, st) && SameOneShots(r.states, st)
    ensures r.states.spraying == st.spraying && r.states.sprayTriggerStartMs == st.sprayTriggerStartMs
  {
    if st.lastLookAt != lookAt then Aim([LookAt(lookAt)], st.(lastLookAt := lookAt))
    else Aim([], st)
  }

  /** Highest rank of the flag tokens, `equip`. */
  const LAST_FLAG_RANK: nat := 12

  /** Whether the flag sent as the token of rank `k` (1 to 12) is set. */
  function FlagSet(st: States, k: nat): bool {
    match k
    case 1 => st.moveForward
    case 2 => st.moveLeft
    case 3 => st.moveRight
    case 4 => st.moveBackward
    case 5 => st.jumping
    case 6 => st.crouching
    case 7 => st.standing
    case 8 => st.shifting
    case 9 => st.running
    case 10 => st.reload
    case 11 => st.drop
    case 12 => st.equip.Some?
    case _ => false
  }

  /** The token sent for the flag of rank `k`. */
  function FlagToken(st: States, k: nat): (t: Token)
    requires 1 <= k <= LAST_FLAG_RANK
    ensures Rank(t) == k
  {
    match k
    case 1 => Forward
    case 2 => Left
    case 3 => Right
    case 4 => Backward
    case 5 => Jump
    case 6 => Crouch
    case 7 => Stand
    case 8 => Walk
    case 9 => Run
    case 10 => Reload
    case 11 => Drop
    case _ => Equip(st.equip.GetOr(0))
  }

  /** The flag tokens from rank `k` on, each sent when its flag is set, in rank order. */
  function FlagTokensFrom(st: States, k: nat): seq<Token>
    requires k >= 1
    decreases LAST_FLAG_RANK + 1 - k
  {
    if k > LAST_FLAG_RANK then []
    else (if FlagSet(st, k) then [FlagToken(st, k)] else []) + FlagTokensFrom(st, k + 1)
  }

  function ClearOneShots(st: States): (r: States)
    ensures OneShotsClear(r) && SameMovement(r, st)
  {
    st.(jumping := false, crouching := false, standing := false, shifting := false,
        running := false, reload := false, drop := false, equip := None)
  }

  /** What one frame sends: the tokens, the joined line, the state after and the emptied buy list. */
  datatype Output = Output(line: string, tokens: seq<Token>, states: States, buyList: seq<nat>)

  /**
   * `getPlayerAction`: pending buys, held movement, one-shot flags (cleared
   * as they are sent), then the aim part.
   */
  function GetPlayerAction(
    st: States, buyList: seq<nat>, horizontal: string, vertical: string, nowMs: int, sprayTriggerDeltaMs: int
  ): (r: Output)
    ensures r.buyList == []
    ensures r.line == Text.Join(RenderAll(r.tokens))
  {
    var aim := AimTokens(ClearOneShots(st), LookAtText(horizontal, vertical), nowMs, sprayTriggerDeltaMs);
    var tokens := BuyTokens(buyList) + FlagTokensFrom(st, 1) + aim.tokens;
    Output(Text.Join(RenderAll(tokens)), tokens, aim.states, [])
  }

  predicate RanksBetween(tokens: seq<Token>, lo: nat, hi: nat) {
    forall i :: 0 <= i < |tokens| ==> lo <= Rank(tokens[i]) <= hi
  }

  /** The flag tokens from rank `k` on lie in ranks k to 12. */
  lemma FlagTokensRanks(st: States, k: nat)
    requires k >= 1
    ensures RanksBetween(FlagTokensFrom(st, k), k, LAST_FLAG_RANK)
  {
    var flags := FlagTokensFrom(st, k);
    FlagTokensExact(st, k);
    assert forall i :: 0 <= i < |flags| ==> flags[i] in flags;
  }

  /** The flag tokens from rank `k` on are strictly rank-ordered. */
  lemma {:induction false} FlagTokensOrdered(st: States, k: nat)
    requires k >= 1
    ensures Ordered(FlagTokensFrom(st, k))
    decreases LAST_FLAG_RANK + 1 - k
  {
    if k <= LAST_FLAG_RANK {
      FlagTokensOrdered(st, k + 1);
      FlagTokensStep(st, k, FlagTokensFrom(st, k + 1));
    }
  }

  lemma FlagTokensStep(st: States, k: nat, rest: seq<Token>)
    requires 1 <= k <= LAST_FLAG_RANK && rest == FlagTokensFrom(st, k + 1) && Ordered(rest)
    ensures Ordered(FlagTokensFrom(st, k))
  {
    FlagTokensRanks(st, k + 1);
    if FlagSet(st, k) {
      var t := FlagToken(st, k);
      PrependOrdered(t, rest, LAST_FLAG_RANK);
      assert FlagTokensFrom(st, k) == [t] + rest;
    } else {
      assert FlagTokensFrom(st, k) == rest;
    }
  }

  /**
   * The flag tokens from rank `k` on are exactly the tokens of the set flags:
   * each one sent is the token of a set flag of its rank, and each set flag
   * of rank `k` or above has its token sent.
   */
  lemma FlagTokensExact(st: States, k: nat)
    requires k >= 1
    ensures forall t :: t in FlagTokensFrom(st, k) ==>
      k <= Rank(t) <= LAST_FLAG_RANK && FlagSet(st, Rank(t)) && t == FlagToken(st, Rank(t))
    ensures forall j :: k <= j <= LAST_FLAG_RANK && FlagSet(st, j) ==> FlagToken(st, j) in FlagTokensFrom(st, k)
  {
    FlagTokensSound(st, k);
    FlagTokensComplete(st, k);
  }

  /** Each flag token sent from rank `k` on is the token of a set flag of its rank. */
  lemma {:induction false} FlagTokensSound(st: States, k: nat)
    requires k >= 1
    ensures forall t :: t in FlagTokensFrom(st, k) ==>
      k <= Rank(t) <= LAST_FLAG_RANK && FlagSet(st, Rank(t)) && t == FlagToken(st, Rank(t))
    decreases LAST_FLAG_RANK + 1 - k
  {
    if k <= LAST_FLAG_RANK {
      FlagTokensSound(st, k + 1);
      FlagTokensSoundStep(st, k, FlagTokensFrom(st, k + 1));
    }
  }

  lemma FlagTokensSoundStep(st: States, k: nat, rest: seq<Token>)
    requires 1 <= k <= LAST_FLAG_RANK && rest == FlagTokensFrom(st, k + 1)
    requires forall t :: t in rest ==>
      k + 1 <= Rank(t) <= LAST_FLAG_RANK && FlagSet(st, Rank(t)) && t == FlagToken(st, Rank(t))
    ensures forall t :: t in FlagTokensFrom(st, k) ==>
      k <= Rank(t) <= LAST_FLAG_RANK && FlagSet(st, Rank(t)) && t == FlagToken(st, Rank(t))
  {
    var head := if FlagSet(st, k) then [FlagToken(st, k)] else [];
    assert FlagTokensFrom(st, k) == head + rest;
  }

  /** Each set flag of rank `k` or above has its token sent. */
  lemma {:induction false} FlagTokensComplete(st: States, k: nat)
    requires k >= 1
    ensures forall j :: k <= j <= LAST_FLAG_RANK && FlagSet(st, j) ==> FlagToken(st, j) in FlagTokensFrom(st, k)
    decreases LAST_FLAG_RANK + 1 - k
  {
    if k <= LAST_FLAG_RANK {
      FlagTokensComplete(st, k + 1);
      FlagTokensCompleteStep(st, k, FlagTokensFrom(st, k + 1));
    }
  }

  lemma FlagTokensCompleteStep(st: States, k: nat, rest: seq<Token>)
    requires 1 <= k <= LAST_FLAG_RANK && rest == FlagTokensFrom(st, k + 1)
    requires forall j :: k + 1 <= j <= LAST_FLAG_RANK && FlagSet(st, j) ==> FlagToken(st, j) in rest
    ensures forall j :: k <= j <= LAST_FLAG_RANK && FlagSet(st, j) ==> FlagToken(st, j) in FlagTokensFrom(st, k)
  {
    var head := if FlagSet(st, k) then [FlagToken(st, k)] else [];
    assert FlagTokensFrom(st, k) == head + rest;
  }

  /** With the one-shot flags clear, only movement tokens (ranks 1 to 4) can be sent. */
  lemma {:induction false} QuietFlagTokens(st: States, k: nat)
    requires k >= 1 && OneShotsClear(st)
    ensures RanksBetween(FlagTokensFrom(st, k), k, 4)
    decreases LAST_FLAG_RANK + 1 - k
  {
    if k <= LAST_FLAG_RANK {
      QuietFlagTokens(st, k + 1);
      QuietFlagTokensStep(st, k, FlagTokensFrom(st, k + 1));
    }
  }

  lemma QuietFlagTokensStep(st: States, k: nat, rest: seq<Token>)
    requires 1 <= k <= LAST_FLAG_RANK && OneShotsClear(st)
    requires rest == FlagTokensFrom(st, k + 1) && RanksBetween(rest, k + 1, 4)
    ensures RanksBetween(FlagTokensFrom(st, k), k, 4)
  {
    var head := if FlagSet(st, k) then [FlagToken(st, k)] else [];
    assert FlagTokensFrom(st, k) == head + rest;
    if FlagSet(st, k) {
      QuietFlagIsMovement(st, k);
    }
    RanksBetweenConcat(head, rest, k, 4);
  }

  /** With the one-shot flags clear, only a movement flag (ranks 1 to 4) can be set. */
  lemma QuietFlagIsMovement(st: States, k: nat)
    requires OneShotsClear(st) && FlagSet(st, k)
    ensures 1 <= k <= 4
  {
  }

  lemma RanksBetweenConcat(a: seq<Token>, b: seq<Token>, lo: nat, hi: nat)
    requires RanksBetween(a, lo, hi) && RanksBetween(b, lo, hi)
    ensures RanksBetween(a + b, lo, hi)
  {
    forall i | 0 <= i < |a + b|
      ensures lo <= Rank((a + b)[i]) <= hi
    {
      if i < |a| {
        assert (a + b)[i] == a[i];
      } else {
        assert (a + b)[i] == b[i - |a|];
      }
    }
  }

  lemma PrependOrdered(t: Token, rest: seq<Token>, hi: nat)
    requires Ordered(rest) && RanksBetween(rest, Rank(t) + 1, hi) && Rank(t) <= hi
    ensures Ordered([t] + rest) && RanksBetween([t] + rest, Rank(t), hi)
  {
    var ts := [t] + rest;
    forall i | 0 < i < |ts|
      ensures Rank(ts[i - 1]) < Rank(ts[i])
    {
      assert ts[i] == rest[i - 1];
      if i > 1 {
        assert ts[i - 1] == rest[i - 2];
      }
    }
  }

  /** The part of a frame's line before the aim tokens: buys, then flags, none ranked above 12. */
  lemma FrontShape(st: States, buyList: seq<nat>)
    ensures var front := BuyTokens(buyList) + FlagTokensFrom(st, 1);
      && Ordered(front)
      && RanksBetween(front, 0, LAST_FLAG_RANK)
      && (forall i :: |buyList| <= i < |front| ==> 1 <= Rank(front[i]))
  {
    FlagTokensOrdered(st, 1);
    FlagTokensRanks(st, 1);
  }

  /**
   * The line always follows the fixed order: buys, forward, left, right,
   * backward, jump, crouch, stand, walk, run, reload, drop, equip, look-at,
   * attack, each kind but `buy` at most once.
   */
  lemma GetPlayerActionOrdered(
    st: States, buyList: seq<nat>, horizontal: string, vertical: string, nowMs: int, sprayTriggerDeltaMs: int)
    ensures Ordered(GetPlayerAction(st, buyList, horizontal, vertical, nowMs, sprayTriggerDeltaMs).tokens)
  {
    FrontShape(st, buyList);
    var aim := AimTokens(ClearOneShots(st), LookAtText(horizontal, vertical), nowMs, sprayTriggerDeltaMs);
    AppendAimOrdered(BuyTokens(buyList) + FlagTokensFrom(st, 1), aim.tokens);
  }

  predicate AimShaped(tokens: seq<Token>) {
    || tokens == []
    || (|tokens| == 1 && tokens[0].LookAt?)
    || (|tokens| == 2 && tokens[0].LookAt? && tokens[1] == Attack)
  }

  lemma AppendAimOrdered(front: seq<Token>, aim: seq<Token>)
    requires Ordered(front) && RanksBetween(front, 0, LAST_FLAG_RANK) && AimShaped(aim)
    ensures Ordered(front + aim)
  {
    var ts := front + aim;
    forall i | 0 < i < |ts|
      ensures Rank(ts[i - 1]) < Rank(ts[i]) || (Rank(ts[i - 1]) == 0 && Rank(ts[i]) == 0)
    {
      if i < |front| {
        assert ts[i - 1] == front[i - 1] && ts[i] == front[i];
      } else if i == |front| {
        assert ts[i - 1] == front[i - 1] && ts[i] == aim[0];
      } else {
        assert ts[i - 1] == aim[i - 1 - |front|] && ts[i] == aim[i - |front|];
      }
    }
  }

  /** Tokens of ranks 1 to 12 in a line can only come from its flag part. */
  lemma FlagPartOnly(buys: seq<Token>, flags: seq<Token>, aim: seq<Token>, t: Token)
    requires forall i :: 0 <= i < |buys| ==> buys[i].Buy?
    requires AimShaped(aim) && 1 <= Rank(t) <= LAST_FLAG_RANK
    ensures t in buys + flags + aim <==> t in flags
  {
    assert forall i :: 0 <= i < |buys| ==> buys[i] != t;
  }

  /**
   * A frame sends the token of every set flag (the queued slot with `equip`)
   * and, in ranks 1 to 12, nothing else.
   */
  lemma GetPlayerActionSendsSetFlags(
    st: States, buyList: seq<nat>, horizontal: string, vertical: string, nowMs: int, sprayTriggerDeltaMs: int)
    ensures var r := GetPlayerAction(st, buyList, horizontal, vertical, nowMs, sprayTriggerDeltaMs);
      && (forall k :: 1 <= k <= LAST_FLAG_RANK && FlagSet(st, k) ==> FlagToken(st, k) in r.tokens)
      && (forall t :: t in r.tokens && 1 <= Rank(t) <= LAST_FLAG_RANK ==>
            FlagSet(st, Rank(t)) && t == FlagToken(st, Rank(t)))
      && (st.equip.Some? ==> Equip(st.equip.value) in r.tokens)
  {
    var r := GetPlayerAction(st, buyList, horizontal, vertical, nowMs, sprayTriggerDeltaMs);
    var buys := BuyTokens(buyList);
    var flags := FlagTokensFrom(st, 1);
    var aim := AimTokens(ClearOneShots(st), LookAtText(horizontal, vertical), nowMs, sprayTriggerDeltaMs);
    assert r.tokens == buys + flags + aim.tokens;
    FlagTokensExact(st, 1);
    forall k | 1 <= k <= LAST_FLAG_RANK && FlagSet(st, k)
      ensures FlagToken(st, k) in r.tokens
    {
      FlagPartOnly(buys, flags, aim.tokens, FlagToken(st, k));
    }
    forall t | t in r.tokens && 1 <= Rank(t) <= LAST_FLAG_RANK
      ensures FlagSet(st, Rank(t)) && t == FlagToken(st, Rank(t))
    {
      FlagPartOnly(buys, flags, aim.tokens, t);
    }
    if st.equip.Some? {
      assert FlagSet(st, LAST_FLAG_RANK);
    }
  }

  /** In an ordered line, a token other than a buy ranks strictly below every later one. */
  lemma {:induction false} OrderedStrict(tokens: seq<Token>, i: nat, j: nat)
    requires Ordered(tokens) && i < j < |tokens| && Rank(tokens[i]) > 0
    ensures Rank(tokens[i]) < Rank(tokens[j])
    decreases j - i
  {
    if j > i + 1 {
      OrderedStrict(tokens, i, j - 1);
    }
  }

  /** Every token but `buy` appears at most once in a line. */
  lemma GetPlayerActionNoRepeats(
    st: States, buyList: seq<nat>, horizontal: string, vertical: string, nowMs: int, sprayTriggerDeltaMs: int)
    ensures var r := GetPlayerAction(st, buyList, horizontal, vertical, nowMs, sprayTriggerDeltaMs);
      forall i, j :: 0 <= i < j < |r.tokens| && !r.tokens[i].Buy? ==> r.tokens[i] != r.tokens[j]
  {
    var r := GetPlayerAction(st, buyList, horizontal, vertical, nowMs, sprayTriggerDeltaMs);
    GetPlayerActionOrdered(st, buyList, horizontal, vertical, nowMs, sprayTriggerDeltaMs);
    OrderedNoRepeats(r.tokens);
  }

  /** In an ordered token sequence no token but `buy` occurs twice. */
  lemma OrderedNoRepeats(tokens: seq<Token>)
    requires Ordered(tokens)
    ensures forall i, j :: 0 <= i < j < |tokens| && !tokens[i].Buy? ==> tokens[i] != tokens[j]
  {
    forall i, j | 0 <= i < j < |tokens| && !tokens[i].Buy?
      ensures tokens[i] != tokens[j]
    {
      OrderedStrict(tokens, i, j);
    }
  }

  /** `reload()` followed by a frame sends `reload` exactly once. */
  lemma ReloadSentOnce(
    st: States, buyList: seq<nat>, horizontal: string, vertical: string, nowMs: int, sprayTriggerDeltaMs: int)
    ensures var r := GetPlayerAction(OnReload(st), buyList, horizontal, vertical, nowMs, sprayTriggerDeltaMs);
      && Reload in r.tokens
      && forall i, j :: 0 <= i < j < |r.tokens| && r.tokens[i] == Reload ==> r.tokens[j] != Reload
  {
    var st' := OnReload(st);
    GetPlayerActionSendsSetFlags(st', buyList, horizontal, vertical, nowMs, sprayTriggerDeltaMs);
    assert FlagSet(st', 10) && FlagToken(st', 10) == Reload;
    GetPlayerActionNoRepeats(st', buyList, horizontal, vertical, nowMs, sprayTriggerDeltaMs);
  }

  /** The token a movement key keeps sending while it is held. */
  function HeldToken(action: Action): Option<Token> {
    match action
    case MoveForward => Some(Forward)
    case MoveLeft => Some(Left)
    case MoveBack => Some(Backward)
    case MoveRight => Some(Right)
    case _ => None
  }

  /** The token the next frame sends because of a key event, if any. */
  function KeyToken(action: Action, enabled: bool): Option<Token> {
    if HeldToken(action).Some? then (if enabled then HeldToken(action) else None)
    else match action
      case CrouchKey => Some(if enabled then Crouch else Stand)
      case WalkKey => Some(if enabled then Walk else Run)
      case JumpKey => if enabled then Some(Jump) else None
      case DropKey => if enabled then Some(Drop) else None
      case ReloadKey => if enabled then Some(Reload) else None
      case EquipKnife => if enabled then Some(Equip(SLOT_KNIFE)) else None
      case EquipPrimary => if enabled then Some(Equip(SLOT_PRIMARY)) else None
      case EquipSecondary => if enabled then Some(Equip(SLOT_SECONDARY)) else None
      case EquipBomb => if enabled then Some(Equip(SLOT_BOMB)) else None
      case _ => None
  }

  /** The flag a key event sets is the one of its token's rank; a released movement key's flag is clear. */
  predicate SetsFlagOfToken(st: States, action: Action, enabled: bool) {
    var r := OnAction(st, action, enabled);
    && (KeyToken(action, enabled).Some? ==>
          var t := KeyToken(action, enabled).value;
          1 <= Rank(t) <= LAST_FLAG_RANK && FlagSet(r, Rank(t)) && FlagToken(r, Rank(t)) == t)
    && (HeldToken(action).Some? && !enabled ==> !FlagSet(r, Rank(HeldToken(action).value)))
  }

  lemma KeyEventSetsFlag(st: States, action: Action, enabled: bool)
    ensures SetsFlagOfToken(st, action, enabled)
  {
    if action == MoveForward || action == MoveLeft || action == MoveBack || action == MoveRight {
      MoveKeySetsFlag(st, action, enabled);
    } else if action == CrouchKey || action == WalkKey {
      ToggleKeySetsFlag(st, action, enabled);
    } else if action == JumpKey || action == DropKey || action == ReloadKey {
      CommandKeySetsFlag(st, action, enabled);
    } else if action == EquipKnife || action == EquipPrimary || action == EquipSecondary || action == EquipBomb {
      EquipKeySetsFlag(st, action, enabled);
    }
  }

  lemma MoveKeySetsFlag(st: States, action: Action, enabled: bool)
    requires action == MoveForward || action == MoveLeft || action == MoveBack || action == MoveRight
    ensures SetsFlagOfToken(st, action, enabled)
  {
  }

  lemma ToggleKeySetsFlag(st: States, action: Action, enabled: bool)
    requires action == CrouchKey || action == WalkKey
    ensures SetsFlagOfToken(st, action, enabled)
  {
  }

  lemma CommandKeySetsFlag(st: States, action: Action, enabled: bool)
    requires action == JumpKey || action == DropKey || action == ReloadKey
    ensures SetsFlagOfToken(st, action, enabled)
  {
  }

  lemma EquipKeySetsFlag(st: States, action: Action, enabled: bool)
    requires action == EquipKnife || action == EquipPrimary || action == EquipSecondary || action == EquipBomb
    ensures SetsFlagOfToken(st, action, enabled)
  {
  }

  /**
   * The frame after a key event sends the event's token: a pressed movement
   * key's direction, crouch or stand, walk or run, jump, drop, reload, or
   * the equip of the key's slot. The frame after a movement key is released
   * does not send its direction.
   */
  lemma KeyEventThenFrame(
    st: States, action: Action, enabled: bool,
    buyList: seq<nat>, horizontal: string, vertical: string, nowMs: int, sprayTriggerDeltaMs: int)
    ensures var r := GetPlayerAction(OnAction(st, action, enabled), buyList, horizontal, vertical, nowMs, sprayTriggerDeltaMs);
      && (KeyToken(action, enabled).Some? ==> KeyToken(action, enabled).value in r.tokens)
      && (HeldToken(action).Some? && !enabled ==> HeldToken(action).value !in r.tokens)
  {
    var st' := OnAction(st, action, enabled);
    KeyEventSetsFlag(st, action, enabled);
    if KeyToken(action, enabled).Some? {
      FrameSendsSetFlag(st', KeyToken(action, enabled).value, buyList, horizontal, vertical, nowMs, sprayTriggerDeltaMs);
    }
    if HeldToken(action).Some? && !enabled {
      FrameOmitsClearFlag(st', HeldToken(action).value, buyList, horizontal, vertical, nowMs, sprayTriggerDeltaMs);
    }
  }

  /** The token of a set flag is in the frame. */
  lemma FrameSendsSetFlag(
    st: States, t: Token, buyList: seq<nat>, horizontal: string, vertical: string, nowMs: int, sprayTriggerDeltaMs: int)
    requires 1 <= Rank(t) <= LAST_FLAG_RANK && FlagSet(st, Rank(t)) && FlagToken(st, Rank(t)) == t
    ensures t in GetPlayerAction(st, buyList, horizontal, vertical, nowMs, sprayTriggerDeltaMs).tokens
  {
    GetPlayerActionSendsSetFlags(st, buyList, horizontal, vertical, nowMs, sprayTriggerDeltaMs);
  }

  /** No token of a clear flag is in the frame. */
  lemma FrameOmitsClearFlag(
    st: States, t: Token, buyList: seq<nat>, horizontal: string, vertical: string, nowMs: int, sprayTriggerDeltaMs: int)
    requires 1 <= Rank(t) <= LAST_FLAG_RANK && !FlagSet(st, Rank(t))
    ensures t !in GetPlayerAction(st, buyList, horizontal, vertical, nowMs, sprayTriggerDeltaMs).tokens
  {
    GetPlayerActionSendsSetFlags(st, buyList, horizontal, vertical, nowMs, sprayTriggerDeltaMs);
  }

  /** One `buy` token per pending entry, in order, at the head of the line and nowhere else. */
  lemma GetPlayerActionBuysFirst(
    st: States, buyList: seq<nat>, horizontal: string, vertical: string, nowMs: int, sprayTriggerDeltaMs: int)
    ensures var r := GetPlayerAction(st, buyList, horizontal, vertical, nowMs, sprayTriggerDeltaMs);
      && |buyList| <= |r.tokens|
      && (forall i :: 0 <= i < |buyList| ==> r.tokens[i] == Buy(buyList[i]))
      && (forall i :: |buyList| <= i < |r.tokens| ==> !r.tokens[i].Buy?)
  {
    FrontShape(st, buyList);
  }

  /**
   * After a frame the one-shot flags and the attack request are cleared;
   * held movement, spraying and the stored shot direction are untouched.
   */
  lemma GetPlayerActionClearsOneShots(
    st: States, buyList: seq<nat>, horizontal: string, vertical: string, nowMs: int, sprayTriggerDeltaMs: int)
    ensures var r := GetPlayerAction(st, buyList, horizontal, vertical, nowMs, sprayTriggerDeltaMs);
      && OneShotsClear(r.states) && !r.states.attack
      && SameMovement(r.states, st)
      && r.states.spraying == st.spraying && r.states.sprayTriggerStartMs == st.sprayTriggerStartMs
      && r.states.shootLookAt == st.shootLookAt
  {
  }

  predicate IsOneShot(t: Token) {
    t.Jump? || t.Crouch? || t.Stand? || t.Walk? || t.Run? || t.Reload? || t.Drop? || t.Equip?
  }

  /** Look-at and attack tokens of a line can only come from its aim part. */
  lemma AimPartOnly(front: seq<Token>, aim: seq<Token>, t: Token)
    requires RanksBetween(front, 0, LAST_FLAG_RANK)
    requires t.LookAt? || t == Attack
    ensures t in front + aim <==> t in aim
  {
    assert forall i :: 0 <= i < |front| ==> front[i] != t;
  }

  /** Movement tokens followed by aim tokens hold no one-shot or buy token. */
  lemma NoOneShotsFrom(flags: seq<Token>, aim: seq<Token>)
    requires RanksBetween(flags, 1, 4) && AimShaped(aim)
    ensures forall i :: 0 <= i < |flags + aim| ==> !IsOneShot((flags + aim)[i]) && !(flags + aim)[i].Buy?
  {
    forall i | 0 <= i < |flags + aim|
      ensures !IsOneShot((flags + aim)[i]) && !(flags + aim)[i].Buy?
    {
      if i < |flags| {
        assert (flags + aim)[i] == flags[i];
      } else {
        assert (flags + aim)[i] == aim[i - |flags|];
      }
    }
  }

  /** An immediate second frame with no new input sends no buy and no one-shot token. */
  lemma SecondFrameOmitsOneShots(
    st: States, buyList: seq<nat>, horizontal: string, vertical: string, nowMs: int, sprayTriggerDeltaMs: int,
    horizontal2: string, vertical2: string, nowMs2: int)
    ensures var r1 := GetPlayerAction(st, buyList, horizontal, vertical, nowMs, sprayTriggerDeltaMs);
      var r2 := GetPlayerAction(r1.states, r1.buyList, horizontal2, vertical2, nowMs2, sprayTriggerDeltaMs);
      forall i :: 0 <= i < |r2.tokens| ==> !IsOneShot(r2.tokens[i]) && !r2.tokens[i].Buy?
  {
    var r1 := GetPlayerAction(st, buyList, horizontal, vertical, nowMs, sprayTriggerDeltaMs);
    GetPlayerActionClearsOneShots(st, buyList, horizontal, vertical, nowMs, sprayTriggerDeltaMs);
    QuietFrameOmitsOneShots(r1.states, horizontal2, vertical2, nowMs2, sprayTriggerDeltaMs);
  }

  /** A frame from a state with its one-shot flags clear and nothing to buy sends no one-shot or buy token. */
  lemma QuietFrameOmitsOneShots(st: States, horizontal: string, vertical: string, nowMs: int, sprayTriggerDeltaMs: int)
    requires OneShotsClear(st)
    ensures var r := GetPlayerAction(st, [], horizontal, vertical, nowMs, sprayTriggerDeltaMs);
      forall i :: 0 <= i < |r.tokens| ==> !IsOneShot(r.tokens[i]) && !r.tokens[i].Buy?
  {
    var aim := AimTokens(ClearOneShots(st), LookAtText(horizontal, vertical), nowMs, sprayTriggerDeltaMs);
    QuietFlagTokens(st, 1);
    NoOneShotsFrom(FlagTokensFrom(st, 1), aim.tokens);
    assert BuyTokens([]) + FlagTokensFrom(st, 1) == FlagTokensFrom(st, 1);
  }

  /** A requested shot ends the line with the stored look direction and `attack`; spraying is not consulted. */
  lemma AttackEndsLine(
    st: States, buyList: seq<nat>, horizontal: string, vertical: string, nowMs: int, sprayTriggerDeltaMs: int)
    requires st.attack
    ensures var r := GetPlayerAction(st, buyList, horizontal, vertical, nowMs, sprayTriggerDeltaMs);
      && |r.tokens| >= 2
      && r.tokens[|r.tokens| - 2..] == [LookAt(st.shootLookAt), Attack]
      && !r.states.attack
      && r.states.lastLookAt == st.lastLookAt
  {
  }

  /** A due spray shot ends the line with the current rotation and `attack`, and keeps spraying. */
  lemma SprayEndsLine(
    st: States, buyList: seq<nat>, horizontal: string, vertical: string, nowMs: int, sprayTriggerDeltaMs: int)
    requires !st.attack && SprayFires(st, nowMs, sprayTriggerDeltaMs)
    ensures var r := GetPlayerAction(st, buyList, horizontal, vertical, nowMs, sprayTriggerDeltaMs);
      && |r.tokens| >= 2
      && r.tokens[|r.tokens| - 2..] == [LookAt(LookAtText(horizontal, vertical)), Attack]
      && r.states.spraying
      && r.states.lastLookAt == st.lastLookAt
  {
  }

  /** With no shot, a look-at token is sent exactly when the direction differs from the last one sent. */
  lemma IdleSendsChangedLookAt(
    st: States, buyList: seq<nat>, horizontal: string, vertical: string, nowMs: int, sprayTriggerDeltaMs: int)
    requires !st.attack && !SprayFires(st, nowMs, sprayTriggerDeltaMs)
    ensures var r := GetPlayerAction(st, buyList, horizontal, vertical, nowMs, sprayTriggerDeltaMs);
      var lookAt := LookAtText(horizontal, vertical);
      && Attack !in r.tokens
      && r.states.lastLookAt == lookAt
      && (LookAt(lookAt) in r.tokens <==> st.lastLookAt != lookAt)
      && (forall t :: t in r.tokens && t.LookAt? ==> t == LookAt(lookAt))
  {
    var r := GetPlayerAction(st, buyList, horizontal, vertical, nowMs, sprayTriggerDeltaMs);
    var front := BuyTokens(buyList) + FlagTokensFrom(st, 1);
    var aim := AimTokens(ClearOneShots(st), LookAtText(horizontal, vertical), nowMs, sprayTriggerDeltaMs);
    FrontShape(st, buyList);
    assert r.tokens == front + aim.tokens;
    AimPartOnly(front, aim.tokens, Attack);
    AimPartOnly(front, aim.tokens, LookAt(LookAtText(horizontal, vertical)));
    forall t | t in front + aim.tokens && t.LookAt?
      ensures t in aim.tokens
    {
      AimPartOnly(front, aim.tokens, t);
    }
  }

  /** Two idle frames with the same rotation send its look-at token at most once. */
  lemma IdleLookAtSentOnce(
    st: States, buyList: seq<nat>, horizontal: string, vertical: string, nowMs: int, nowMs2: int, sprayTriggerDeltaMs: int)
    requires !st.attack && !SprayFires(st, nowMs, sprayTriggerDeltaMs) && !SprayFires(st, nowMs2, sprayTriggerDeltaMs)
    ensures var r1 := GetPlayerAction(st, buyList, horizontal, vertical, nowMs, sprayTriggerDeltaMs);
      var r2 := GetPlayerAction(r1.states, r1.buyList, horizontal, vertical, nowMs2, sprayTriggerDeltaMs);
      LookAt(LookAtText(horizontal, vertical)) !in r2.tokens
  {
    var r1 := GetPlayerAction(st, buyList, horizontal, vertical, nowMs, sprayTriggerDeltaMs);
    IdleSendsChangedLookAt(st, buyList, horizontal, vertical, nowMs, sprayTriggerDeltaMs);
    GetPlayerActionClearsOneShots(st, buyList, horizontal, vertical, nowMs, sprayTriggerDeltaMs);
    IdleSendsChangedLookAt(r1.states, r1.buyList, horizontal, vertical, nowMs2, sprayTriggerDeltaMs);
  }

  /** No token text holds the separator, given look-at texts without one. */
  lemma RenderHasNoSeparator(t: Token)
    requires t.LookAt? ==> Text.NoSeparator(t.text)
    ensures Text.NoSeparator(Render(t))
  {
    match t
    case Buy(item) =>
      var digits := Text.NatToString(item);
      assert Render(t) == "buy " + digits;
    case Equip(slot) =>
      var digits := Text.NatToString(slot);
      assert Render(t) == "equip " + digits;
    case _ =>
  }

  /** Rendered tokens hold no separator when their look-at texts hold none. */
  lemma RenderAllHasNoSeparator(tokens: seq<Token>)
    requires forall i :: 0 <= i < |tokens| && tokens[i].LookAt? ==> Text.NoSeparator(tokens[i].text)
    ensures forall i :: 0 <= i < |tokens| ==> Text.NoSeparator(RenderAll(tokens)[i])
  {
    forall i | 0 <= i < |tokens|
      ensures Text.NoSeparator(RenderAll(tokens)[i])
    {
      RenderHasNoSeparator(tokens[i]);
    }
  }

  lemma LookAtTextHasNoSeparator(horizontal: string, vertical: string)
    requires Text.NoSeparator(horizontal) && Text.NoSeparator(vertical)
    ensures Text.NoSeparator(LookAtText(horizontal, vertical))
  {
    var lookAt := LookAtText(horizontal, vertical);
    assert lookAt == "lookAt " + horizontal + " " + vertical;
  }

  /** The look-at texts a frame sends are the stored shot direction or the current rotation. */
  lemma LookAtTextsSent(
    st: States, buyList: seq<nat>, horizontal: string, vertical: string, nowMs: int, sprayTriggerDeltaMs: int)
    ensures var r := GetPlayerAction(st, buyList, horizontal, vertical, nowMs, sprayTriggerDeltaMs);
      forall i :: 0 <= i < |r.tokens| && r.tokens[i].LookAt? ==>
        r.tokens[i].text == st.shootLookAt || r.tokens[i].text == LookAtText(horizontal, vertical)
  {
    var r := GetPlayerAction(st, buyList, horizontal, vertical, nowMs, sprayTriggerDeltaMs);
    var aim := AimTokens(ClearOneShots(st), LookAtText(horizontal, vertical), nowMs, sprayTriggerDeltaMs);
    var front := BuyTokens(buyList) + FlagTokensFrom(st, 1);
    FrontShape(st, buyList);
    assert r.tokens == front + aim.tokens;
    LookAtsFromAim(front, aim.tokens, st.shootLookAt, LookAtText(horizontal, vertical));
  }

  /** A look-at of a line is one of the aim part's look-at texts. */
  lemma LookAtsFromAim(front: seq<Token>, aim: seq<Token>, a: string, b: string)
    requires RanksBetween(front, 0, LAST_FLAG_RANK)
    requires forall t :: t in aim && t.LookAt? ==> t.text == a || t.text == b
    ensures forall i :: 0 <= i < |front + aim| && (front + aim)[i].LookAt? ==>
      (front + aim)[i].text == a || (front + aim)[i].text == b
  {
    forall i | 0 <= i < |front + aim| && (front + aim)[i].LookAt?
      ensures (front + aim)[i] in aim
    {
      AimPartOnly(front, aim, (front + aim)[i]);
    }
  }

  /**
   * The joined line splits back on `|` into the rendered tokens, provided
   * the rendered angles and the stored shot direction hold no `|`.
   */
  lemma LineSplitsIntoTokens(
    st: States, buyList: seq<nat>, horizontal: string, vertical: string, nowMs: int, sprayTriggerDeltaMs: int)
    requires Text.NoSeparator(horizontal) && Text.NoSeparator(vertical) && Text.NoSeparator(st.shootLookAt)
    ensures var r := GetPlayerAction(st, buyList, horizontal, vertical, nowMs, sprayTriggerDeltaMs);
      |r.tokens| >= 1 ==> Text.Split(r.line) == RenderAll(r.tokens)
  {
    var r := GetPlayerAction(st, buyList, horizontal, vertical, nowMs, sprayTriggerDeltaMs);
    LookAtTextHasNoSeparator(horizontal, vertical);
    LookAtTextsSent(st, buyList, horizontal, vertical, nowMs, sprayTriggerDeltaMs);
    var tokens := r.tokens;
    assert forall i :: 0 <= i < |tokens| && tokens[i].LookAt? ==> Text.NoSeparator(tokens[i].text);
    RenderAllHasNoSeparator(tokens);
    if |r.tokens| >= 1 {
      Text.SplitJoin(RenderAll(r.tokens));
    }
  }

  /** The other entry points keep the spraying flag and its start time in step, as every key callback does. */
  lemma OperationsKeepValid(
    st: States, x: string, y: string, slot: nat,
    buyList: seq<nat>, horizontal: string, vertical: string, nowMs: int, sprayTriggerDeltaMs: int)
    requires Valid(st)
    ensures Valid(OnAttack(st, x, y))
    ensures Valid(OnEquip(st, slot))
    ensures Valid(SprayingEnable(st, nowMs))
    ensures Valid(SprayingDisable(st))
    ensures Valid(GetPlayerAction(st, buyList, horizontal, vertical, nowMs, sprayTriggerDeltaMs).states)
  {
    GetPlayerActionClearsOneShots(st, buyList, horizontal, vertical, nowMs, sprayTriggerDeltaMs);
  }

  lemma InitialIsValid()
    ensures Valid(INITIAL) && OneShotsClear(INITIAL) && !INITIAL.attack
  {
  }

  /** Held movement changes only through the four movement bindings. */
  lemma MovementOnlyFromMoveKeys(st: States, action: Action, enabled: bool)
    requires action !in {MoveForward, MoveLeft, MoveBack, MoveRight}
    ensures SameMovement(OnAction(st, action, enabled), st)
  {
  }
}

=== FILE: solid_surface.dfy ===
/**
 * A non-player hit target (wall, box face, floor). Every surface answers the
 * hit-result questions the same way: no money, no kill, no player, no
 * headshot. Its anti-force, the penetration cost it imposes on a bullet,
 * defaults to 25123 unless a kind of surface overrides it.
 */
module SolidSurface {
  import opened Wrappers

  const DEFAULT_HIT_ANTI_FORCE: int := 25123

  datatype Point = Point(x: int, y: int, z: int)

  /** A player a hit may report; players are not part of this model beyond their identity. */
  datatype PlayerId = PlayerId(id: nat)

  /** `plane` is the description a concrete surface kind gives of its orientation. */
  datatype SolidSurface = SolidSurface(hitAntiForce: int, plane: string)

  /** A surface of a kind that keeps the default anti-force. */
  function WithDefaultAntiForce(plane: string): (s: SolidSurface)
    ensures s.hitAntiForce == DEFAULT_HIT_ANTI_FORCE && s.plane == plane
  {
    SolidSurface(DEFAULT_HIT_ANTI_FORCE, plane)
  }

  /** The anti-force at a hit point: the surface's field, wherever the point is. */
  function GetHitAntiForce(s: SolidSurface, point: Point): int {
    s.hitAntiForce
  }

  function GetMoneyAward(s: SolidSurface): int {
    0
  }

  function PlayerWasKilled(s: SolidSurface): bool {
    false
  }

  function GetPlayer(s: SolidSurface): Option<PlayerId> {
    None
  }

  function WasHeadShot(s: SolidSurface): bool {
    false
  }

  /** The anti-force of a default surface is 25123 at every point, and never depends on the point. */
  lemma AntiForceIgnoresPoint(s: SolidSurface, p: Point, q: Point)
    ensures GetHitAntiForce(s, p) == GetHitAntiForce(s, q)
    ensures GetHitAntiForce(WithDefaultAntiForce(s.plane), p) == DEFAULT_HIT_ANTI_FORCE
  {
  }

  /** Hitting a surface never awards money, never kills, names no player and is never a headshot. */
  lemma SurfaceHitReportsNothing(s: SolidSurface)
    ensures GetMoneyAward(s) == 0
    ensures !PlayerWasKilled(s)
    ensures GetPlayer(s).None?
    ensures !WasHeadShot(s)
  {
  }

  /** A value of the serialised record. */
  datatype Value = IntValue(i: int) | StringValue(s: string)

  /** The record sent to clients for a hit at `position`: exactly `force` and `plane`. */
  function Serialize(s: SolidSurface, position: Point): (r: map<string, Value>)
    ensures r.Keys == {"force", "plane"}
    ensures r["force"] == IntValue(GetHitAntiForce(s, position))
    ensures r["plane"] == StringValue(s.plane)
  {
    map["force" := IntValue(GetHitAntiForce(s, position)), "plane" := StringValue(s.plane)]
  }

  /** Reads a serialised record back as the surface it describes, if it has that shape. */
  function Deserialize(m: map<string, Value>): Option<SolidSurface> {
    if "force" in m && "plane" in m && m["force"].IntValue? && m["plane"].StringValue? then
      Some(SolidSurface(m["force"].i, m["plane"].s))
    else None
  }

  /** Serialising loses nothing about the surface. */
  lemma DeserializeSerialize(s: SolidSurface, position: Point)
    ensures Deserialize(Serialize(s, position)) == Some(s)
  {
  }
}

=== FILE: text.dfy ===
/**
 * Text helpers for the client's action line: JavaScript's rendering of a
 * non-negative integer below 10^21 (`'buy ' + id`), and `Array.prototype.join('|')`
 * together with the matching split that recovers the tokens.
 */
module Text {

  const SEPARATOR: char := '|'

  predicate IsDigit(c: char) {
    '0' <= c <= '9'
  }

  function DigitChar(d: nat): (c: char)
    requires d < 10
    ensures IsDigit(c)
    ensures c as int - '0' as int == d
  {
    "0123456789"[d]
  }

  /** Decimal rendering of a non-negative integer, without leading zeros. */
  function NatToString(n: nat): (s: string)
    ensures |s| >= 1
    ensures forall i :: 0 <= i < |s| ==> IsDigit(s[i])
    ensures |s| > 1 ==> s[0] != '0'
    decreases n
  {
    if n < 10 then [DigitChar(n)] else NatToString(n / 10) + [DigitChar(n % 10)]
  }

  /** Reads a string of decimal digits back as a number. */
  function ParseNat(s: string): (n: nat)
    requires forall i :: 0 <= i < |s| ==> IsDigit(s[i])
    decreases |s|
  {
    if |s| == 0 then 0
    else
      assert IsDigit(s[|s| - 1]);
      ParseNat(s[..|s| - 1]) * 10 + (s[|s| - 1] as int - '0' as int)
  }

  /** The rendering is faithful: parsing a rendered number gives the number back. */
  lemma {:induction false} ParseNatToString(n: nat)
    ensures ParseNat(NatToString(n)) == n
    decreases n
  {
    var s := NatToString(n);
    if n >= 10 {
      ParseNatToString(n / 10);
      assert s[..|s| - 1] == NatToString(n / 10);
    }
  }

  /** Distinct numbers render differently. */
  lemma NatToStringInjective(m: nat, n: nat)
    requires NatToString(m) == NatToString(n)
    ensures m == n
  {
    ParseNatToString(m);
    ParseNatToString(n);
  }

  /** `tokens.join('|')`: the empty list joins to the empty string. */
  function Join(tokens: seq<string>): (line: string)
    ensures |tokens| == 1 ==> line == tokens[0]
    decreases |tokens|
  {
    if |tokens| == 0 then ""
    else if |tokens| == 1 then tokens[0]
    else tokens[0] + [SEPARATOR] + Join(tokens[1..])
  }

  /** `line.split('|')`: always at least one piece, empty pieces kept. */
  function Split(line: string): (pieces: seq<string>)
    ensures |pieces| >= 1
    decreases |line|
  {
    if |line| == 0 then [""]
    else
      var rest := Split(line[1..]);
      if line[0] == SEPARATOR then [""] + rest
      else [[line[0]] + rest[0]] + rest[1..]
  }

  predicate NoSeparator(s: string) {
    forall i :: 0 <= i < |s| ==> s[i] != SEPARATOR
  }

  lemma {:induction false} SplitWithoutSeparator(s: string)
    requires NoSeparator(s)
    ensures Split(s) == [s]
    decreases |s|
  {
    if |s| > 0 {
      SplitWithoutSeparator(s[1..]);
      assert [s[0]] + s[1..] == s;
    }
  }

  lemma {:induction false} SplitAtSeparator(t: string, u: string)
    requires NoSeparator(t)
    ensures Split(t + [SEPARATOR] + u) == [t] + Split(u)
    decreases |t|
  {
    var line := t + [SEPARATOR] + u;
    if |t| == 0 {
      assert line[1..] == u;
    } else {
      assert line[1..] == t[1..] + [SEPARATOR] + u;
      SplitAtSeparator(t[1..], u);
      assert [t[0]] + t[1..] == t;
    }
  }

  /** Splitting a joined line gives back the tokens, as long as no token holds the separator. */
  lemma {:induction false} SplitJoin(tokens: seq<string>)
    requires |tokens| >= 1
    requires forall i :: 0 <= i < |tokens| ==> NoSeparator(tokens[i])
    ensures Split(Join(tokens)) == tokens
    decreases |tokens|
  {
    if |tokens| == 1 {
      SplitWithoutSeparator(tokens[0]);
    } else {
      SplitAtSeparator(tokens[0], Join(tokens[1..]));
      SplitJoin(tokens[1..]);
      assert [tokens[0]] + tokens[1..] == tokens;
    }
  }
}

=== FILE: wrappers.dfy ===
/** Optional value, standing in for PHP's nullable returns and JavaScript's null. */
module Wrappers {

  datatype Option<+T> = None | Some(value: T) {

    /** Returns the value held in Some, or the given default when None. */
    function GetOr(default: T): T {
      match this
      case Some(v) => v
      case None => default
    }
  }
}
